=== FILE: README.md ===
# Flexible content: cast pipeline, depended layouts and layout registry

A Dafny model of the core of `nova-flexible-content`, a Laravel Nova package
that stores page content as an ordered list of layouts inside JSON columns.

The model covers three pieces.

- **The cast pipeline** of the `HasFlexible` trait (`cast.dfy`, module `Cast`).
  - A stored value becomes a collection of layout instances.
  - The value may be JSON text, an array or a collection; anything else gives an empty collection.
  - Each item gives a name, a key and attributes. The name picks a class from the layout mapping, or the configured default class.
  - Items without a name are dropped, and the survivors keep their original keys.
  - Every non-empty array attribute is cast in turn into a collection.
  - A `depended-layout` placeholder carries a pointer `{id}___{column}___{key}` in its `layout` attribute. It is replaced, in place, by the last layout of that record's column whose key matches.
- **The option builder** behind `getOptionsForDependedLayoutSelect()` (`options.dfy`, module `Options`).
  - It makes one option per stored top-level layout that is not ignored.
  - Each option is keyed `{id}___{column}___{key}` and carries a label and a group.
- **The layout registry** of `Flex` (`registry.dfy`, module `Registry`).
  - It reads static configuration: direct entries, and callables that must return arrays.
  - Alternatively it auto-discovers layout classes under the layouts folder, remembering the result per instance.
  - It optionally merges in the built-in `wysiwyg` default layout, which wins over a same-named entry.
  - It also rewrites a file path into a class name.

Supporting modules:

- `PhpValues` (`php.dfy`) models the PHP values involved:
  - arrays as ordered key/value entries;
  - `stdClass`, collections and layout instances;
  - `array_merge`, truthiness and loose `==` against a string;
  - string interpolation and `string` return conversion;
  - `(array)` and `Model::find`.
- `Strings` models `explode`, `Str::remove`, `str_replace` on one character and `SplFileInfo::getExtension`.
- `Pointers` models the composite key and its parsing.
- `Sequences` models the index view of `array_filter`.
- `Results` holds `Option`/`Result`.

The outside world is passed in as values:

- `json_decode` is a function `string -> Value`.
- The record table is a sequence of records.
- The folder scan is a list of paths plus a function giving what instantiating a class yields.
- Configuration values are arrays.

PHP exceptions become `Failure` values:

- In the cast, an illegal offset, a pointer that is not text, a malformed pointer, a missing record, or fuel running out.
- In the option builder, an exception escaping the builder.
- In the registry, a callable returning a non-array, or a non-iterable `layouts` setting.

The model follows the code in these places:

- A placeholder whose pointer matches no layout is left unchanged. It is not dropped.
- A pointer naming a missing record is an error: `->flex()` is called on `null`. It is not left unresolved.
- A pointer with more than two `___` is accepted and its first three pieces are used.
- The option builder's `catch` does not catch the warnings it was meant to catch (see Findings).

## Model

| member | source | states |
|---|---|---|
| Cast.ToFlexible | src/Concerns/HasFlexible.php:87-119 | A value with no item array gives an empty collection. A successful cast has one slot per named item, in input order, each under that item's original key. |
| Cast.Normalise | src/Concerns/HasFlexible.php:127-144 | A stored value has items exactly when it is a collection, an array, or text that decodes to a JSON array. The items are the array's entries, the collection's items, or the entries of the decoded text. |
| Cast.NormaliseIsIdempotent | src/Concerns/HasFlexible.php:135-141 | The items a value normalises to, stored again as an array or a collection, normalise to themselves. |
| Cast.TextNormalisesAsDecoded | src/Concerns/HasFlexible.php:129-133 | JSON text gives the items of the value it decodes to, unless that value is itself text. |
| Cast.ExtractItem | src/Concerns/HasFlexible.php:167-193 | An array or `stdClass` item yields a layout exactly when its `layout` field is not null. It takes its name from `layout` and its key from `key`. In the array form truthy attributes become `(array) attributes` and falsy ones become empty. In the object form attributes are always `(array) attributes`, so missing ones become empty. Scalars yield nothing. |
| Cast.ArrayAndObjectItemsAgree | src/Concerns/HasFlexible.php:177-184 | An item decoded as an array and the same item decoded as a `stdClass` give the same layout fields when `attributes` is null, an array or an object. |
| Cast.TextItemIsDecoded | src/Concerns/HasFlexible.php:173-175 | A JSON-text item is extracted from its decoded value. |
| Cast.ExtractLayoutInstance | src/Concerns/HasFlexible.php:185-188 | A layout instance gives its own name, key and attributes. |
| Cast.MapLayouts | src/Concerns/HasFlexible.php:153-196 | Slot `i` comes from the `i`-th named item, keeps its key, and holds the layout built from it. |
| Cast.CreateMappedLayout | src/Concerns/HasFlexible.php:207-240 | A name that is not a valid offset fails. Otherwise the layout has class `mapping[name]` or the default class, the item's name and key, and the item's attributes after casting. |
| Cast.CastAttributes | src/Concerns/HasFlexible.php:223-238 | Keys and order are kept. A non-empty array attribute becomes the collection its own cast gives, one nesting level deeper. Every other attribute is unchanged. |
| Cast.ResolveAll | src/Concerns/HasFlexible.php:104-116 | Resolution keeps the number of slots. Each slot is resolved on its own against the collection as it was before resolution. |
| Cast.ResolveSlot | src/Concerns/HasFlexible.php:104-116 | A slot keeps its position. A layout that is not a placeholder is never touched. |
| Cast.IsDepended | src/Concerns/HasFlexible.php:105 | A layout is a placeholder when its class string is the depended-layout class. A layout with a text name is a placeholder exactly when that holds or its name is exactly `depended-layout`, because that word is not numeric. `instanceof` is reduced to equality of class strings (see Left out). |
| Cast.NumericKeysMatch | src/Concerns/HasFlexible.php:111 | Keys compare as PHP 8 compares them: a stored key `"01"`, `" 1"` or `1` matches the pointer key `1`, and `"1a"` does not. |
| Cast.FlexColumn | src/Concerns/HasFlexible.php:71-78 | A record without the column gives an empty collection. A successful cast has one layout per named item of the column. |
| Cast.CastValue | src/Concerns/HasFlexible.php:62-69 | A falsy value gives an empty collection. A truthy one is cast as it is. |
| Cast.MirrorTakesLastMatch | src/Concerns/HasFlexible.php:110-114 | The slot ends up holding the last target whose key loosely equals the pointer's key, or stays as it was when none does. |
| Cast.PlaceholderTakesLastMatch | src/Concerns/HasFlexible.php:104-116 | A placeholder pointing at an existing record is replaced, at its own position, by the last matching layout of that record's column, and is kept when none matches. |
| Cast.MalformedPointerFails | src/Concerns/HasFlexible.php:106 | A pointer that splits into fewer than three pieces fails the cast. |
| Cast.SingleDelimiterPointerFails | src/Concerns/HasFlexible.php:106 | The pointer `5___body` is malformed. |
| Cast.MissingRecordFails | src/Concerns/HasFlexible.php:107-109 | A pointer to an id no record has fails with that id. |
| Cast.CastSlots | src/Concerns/HasFlexible.php:87-119 | Slot by slot, the output is the resolved layout of the matching named item. A non-placeholder comes out exactly as built. |
| Cast.CastAttributesFixesCast | src/Concerns/HasFlexible.php:223-227 | Attributes holding no non-empty array come through unchanged. |
| Cast.RebuildLayout | src/Concerns/HasFlexible.php:207-240 | Building a layout again from a built layout's name, key and attributes gives the same layout. |
| Cast.RemapIsIdentity | src/Concerns/HasFlexible.php:153-196 | Mapping a mapped collection again, with any fuel, gives the same slots. |
| Cast.MapSampleItem | src/Concerns/HasFlexible.php:153-196 | The item `{layout: "x", key: "k1"}` maps to the layout `x` under key 0. |
| Cast.CastSampleArray | src/Concerns/HasFlexible.php:87-119 | A one-item array casts to the one-slot collection. |
| Cast.NestedArrayBecomesCollection | src/Concerns/HasFlexible.php:223-236 | An attribute holding a non-empty array becomes, under the same key, the collection its own cast gives (one level of nesting spent). |
| Pointers.ParsePointer | src/Concerns/HasFlexible.php:106 | Parsing fails exactly when `explode` gives fewer than three pieces. Otherwise id, column and key are the first three pieces. None of them contains `___`. Joined again, they are a prefix of the pointer. |
| Pointers.ParseCompositeKey | src/Concerns/HasFlexible.php:106 | A composite key whose id and column are separable parses to that id and column and the part of the key before its own first `___`. |
| Pointers.CompositeKeyRoundTrip | src/Concerns/HasFlexible.php:325 | A key built from a separable id and column and a key without `___` parses back to the same triple. |
| Pointers.ExplodeCompositeKey | src/Concerns/HasFlexible.php:325 | Splitting a composite key gives the id, the column and the pieces of the layout key. |
| Pointers.OneDelimiterIsMalformed | src/Concerns/HasFlexible.php:106 | A pointer with a single delimiter is malformed. |
| Pointers.TrailingUnderscoreShiftsSplit | src/Concerns/HasFlexible.php:106 | An id ending in `_` moves the split: `7____body___k` parses as id `7`, column `_body`. |
| Options.Label | src/Concerns/HasFlexible.php:278-293 | The label is `attributes->title` when set. Otherwise it is `attributes->name` when set, else `Unknown`. The chosen value converts as a `string` return does. An integer becomes decimal text that parses back to it. A boolean becomes `"1"` or `""`. Any other set value is a fatal `TypeError`. The label always loosely equals the value it came from. |
| Options.Group | src/Concerns/HasFlexible.php:269-276 | The group is the record's truthy name, else `{ShortName}: #{id}`. A truthy integer name becomes its decimal text and `true` becomes `"1"`. A truthy name that is not a scalar is a fatal `TypeError`. A returned name loosely equals the record's name. An integer id appears as its decimal text, which parses back to it. An id that cannot be interpolated makes the group fail the same way. |
| Options.ItemOutcome | src/Concerns/HasFlexible.php:321-329 | A layout is emitted only if it has a readable name that is not ignored. Its option is keyed `{id}___{column}___{key}`, with the label and group as above. Conversely, such a layout, with a `key` and with id, key, label and group all converting to text, is emitted with exactly that key and option. A layout is skipped exactly when its name is ignored. A missing `layout` or `key` raises a warning. |
| Options.BuildOptions | src/Concerns/HasFlexible.php:302-338 | `depended-layout` is always ignored. Reading the option map at any key gives the last emission under that key across records, columns and layouts in order. |
| Options.EmitLayoutsReadsEmissions | src/Concerns/HasFlexible.php:319-333 | Each key of the options holds the last option emitted under it by one column's layouts. |
| Options.EmitColumnsReadsEmissions | src/Concerns/HasFlexible.php:314-334 | The same across the configured columns of one record. A column without a JSON array contributes nothing. |
| Options.OptionsReadEmissions | src/Concerns/HasFlexible.php:311-337 | Reading the option map is reading the emissions of all records in order. The last emitter of a key wins. |
| Options.EmissionsHas | src/Concerns/HasFlexible.php:319-333 | A list of outcomes emits a key exactly when one outcome is an option under that key. |
| Options.LayoutEmissionsHas | src/Concerns/HasFlexible.php:319-333 | One column emits a key exactly when one of its layouts emits it. |
| Options.ColumnEmissionsHas | src/Concerns/HasFlexible.php:315-333 | A column emits a key exactly when it holds a JSON array with a layout emitting it. |
| Options.RecordEmissionsHas | src/Concerns/HasFlexible.php:314-334 | A record emits a key exactly when one of its configured columns does. |
| Options.AllEmissionsHas | src/Concerns/HasFlexible.php:311-335 | All records emit a key exactly when some record and column emit it. |
| Options.OptionKeysAreEmittedKeys | src/Concerns/HasFlexible.php:307-337 | The option map holds a key exactly when some stored layout of some record and column emits it. |
| Options.EmitLayoutsAgree | src/Concerns/HasFlexible.php:319-333 | Where one column's loop succeeds as written, the intended catch gives the same options. |
| Options.EmitColumnsAgree | src/Concerns/HasFlexible.php:314-334 | The same for one record's columns. |
| Options.EmitRecordsAgree | src/Concerns/HasFlexible.php:311-335 | The same for all records. |
| Options.CorrectedAgreesWithAsWritten | src/Concerns/HasFlexible.php:302-338 | Where the builder as written succeeds, the corrected builder returns the same options. |
| Options.WarningLayoutIsSkipped | src/Concerns/HasFlexible.php:320-332 | With the catch in force, a layout whose handling warns is skipped. |
| Options.WarningLayoutAborts | src/Concerns/HasFlexible.php:330 | As written, the same layout aborts the whole option list. |
| Options.KeylessLayoutWarns | src/Concerns/HasFlexible.php:325 | A stored layout without `key` raises a warning when its option key is built. |
| Options.KeylessLayoutAsWritten | src/Concerns/HasFlexible.php:330 | As written, a record holding one keyless layout makes the builder throw. |
| Options.KeylessLayoutCorrected | src/Concerns/HasFlexible.php:320-332 | With the catch in force, the same record gives an empty option list. |
| Options.DependedLayoutsNeverOffered | src/Concerns/HasFlexible.php:307-323 | A layout named `depended-layout` is always skipped, whatever the configured ignore list. |
| Options.EmittedKeyParses | src/Concerns/HasFlexible.php:325 | An offered key parses back, under the resolver's pointer parsing, into the id, column and layout key it was built from. |
| PhpValues.ArrayMergeOnNames | src/Flex.php:36 | For a string key, `array_merge($a, $b)` holds `$b`'s value when `$b` has the key, else `$a`'s. |
| PhpValues.OffsetKey | src/Concerns/HasFlexible.php:209 | A layout name is a valid array offset exactly when it is a scalar or null. A string is its own key and an integer its own. `true` becomes 1, `false` 0 and `null` the empty string. |
| PhpValues.Interpolate | src/Concerns/HasFlexible.php:325 | A string interpolates to itself, `null` to `""`, a boolean to `"1"` or `""`. An integer interpolates to decimal text that parses back to it. An array warns and anything else is a fatal `Error`. Interpolated text loosely equals the value it came from. |
| PhpValues.ReturnedText | src/Concerns/HasFlexible.php:269-293 | A `string` return converts exactly the scalars. A string is returned unchanged, a boolean becomes `"1"` or `""`, and an integer's text parses back to it. The text loosely equals the value. Anything else is a fatal `TypeError`. |
| PhpValues.DecimalTextParses | src/Concerns/HasFlexible.php:325 | The decimal text of an integer reads back, as a numeric string, to that integer. |
| PhpValues.LooseEqualsReflexive | src/Concerns/HasFlexible.php:111 | A string loosely equals itself, and an integer loosely equals its decimal text. |
| PhpValues.Find | src/Concerns/HasFlexible.php:108 | A found record is in the table and its id loosely equals the one asked for. Not finding one means no record matches. |
| Registry.ResolveFilePathToClass | src/Flex.php:115-124 | The class name derived from a path starts with `\App` and contains no `/`. |
| Registry.FolderFileClass | src/Flex.php:115-129 | A file `{app}/Flexible/{rel}.php` resolves to `\App\Flexible\{rel}` with the `/` of `rel` turned into `\`, when `.php` and the application path occur nowhere else in it. |
| Strings.RemoveAllIsExplodeConcat | src/Flex.php:117-119 | Removing a pattern is joining the pieces `explode` cuts around it. |
| Registry.Accept | src/Flex.php:78-85 | Only a file ending in `.php` contributes. Such a file contributes exactly when its class constructs to a layout that does not exclude itself, and then under that layout's name and class. |
| Registry.AutoDiscoveryIsActive | src/Flex.php:131-134 | Auto-discovery is on exactly when `auto-discovery` is present and identical to `true`. A truthy `1` does not switch it on. |
| Registry.LoadDefaultLayouts | src/Flex.php:136-139 | The defaults are merged exactly when `merge_layouts` is identical to `true`. |
| Strings.ExtensionPhpIffSuffix | src/Flex.php:78 | A path has the extension `php` exactly when it ends in `.php`. |
| Registry.AcceptedFromFiles | src/Flex.php:77-97 | Every discovered layout comes from some scanned file. |
| Registry.AcceptedContains | src/Flex.php:77-97 | Every accepted file's layout is among the discovered ones. |
| Registry.DiscoverReadsAccepted | src/Flex.php:77-97 | For each name, discovery keeps the class of the last accepted file declaring it. |
| Registry.DiscoveredNames | src/Flex.php:77-97 | A name is discovered exactly when some `.php` file constructs to a layout of that name that does not exclude itself. |
| Registry.AutoDiscoverLayouts | src/Flex.php:65-113 | A non-empty memo is returned unchanged. Otherwise the result becomes the memo. With no folder and no defaults the result is empty. |
| Registry.StaticLayouts | src/Flex.php:29-40 | The only failure is the callable error. A success means no callable entry returned a non-array. |
| Registry.StaticLayoutsFailsIff | src/Flex.php:29-40 | Static configuration fails exactly when some callable entry returns a non-array. |
| Registry.StaticLayoutsOnNames | src/Flex.php:29-40 | Each name resolves to its last contribution, from a direct entry or a callable's array. |
| Registry.GetLayouts | src/Flex.php:23-53 | Auto-discovery, when active, decides alone and cannot fail. With no static configuration the result is the defaults, whatever `merge_layouts` says. A static configuration fails exactly when it is a scalar (not iterable) or some callable returns a non-array, with the matching error. A closure given as the whole setting walks as an object without properties. Static configuration never changes the memo. |
| Registry.ClosureSettingGivesNoLayouts | src/Flex.php:28-49 | A closure given as the whole `layouts` setting is not called. `foreach` finds nothing in it, so the result is empty, or just the defaults with `merge_layouts`. |
| Registry.StaticConfigIgnoredWhenDiscovering | src/Flex.php:25-27 | With auto-discovery active, changing the static `layouts` setting changes nothing. |
| Registry.StaticLayoutsWithDefaults | src/Flex.php:28-49 | With `merge_layouts`, a default overwrites a configured layout of the same name. Every other name keeps its configured class. |
| Registry.DiscoveredLayoutsWithDefaults | src/Flex.php:103-108 | With `merge_layouts`, a default overwrites a discovered layout of the same name. Every other name keeps its discovered class. |
| Registry.DiscoveryIsMemoised | src/Flex.php:67-69 | A second call returns a non-empty first result whatever the folder now holds. An empty first result is scanned again. |

## Left out

- Cache plumbing is not modelled: `Cache::tags()->remember/flush`, `rememberForever`, `forget` and the model-event boot hooks. The option builder is modelled as the pure callable.
- The short-circuit in `cast()` that returns the raw value inside a Nova web request depends on framework state. It is not modelled.
- The `json_decode(json_encode(...))` reshaping of sub-layout attributes only changes the array/object representation. It is treated as the identity.
- Layout classes are not part of this model: their constructor, `onLoad`, `setModel`, `setWith`, `getAttributes`, `title()` and `render()`. Instead:
  - a layout stores the name, key and attributes it was built from, with the name as its title;
  - non-array attributes are taken through `(array)`;
  - `$layout->key` and `$layout->layout` are read as the layout's key and its `layout` attribute.
- The eager-load list (`$with`) is carried along in each layout, but nothing is proved about it. The layout's back-reference to its model (`setModel`) is not modelled.
- Cast.ToFlexible: the source recurses without a bound, so a cyclic pointer recurses until PHP stops with a fatal stack or memory error. The model spends one unit of fuel per nested cast or pointer hop and fails with `OutOfFuel` when it runs out.
- Floats, and PHP's normalisation of numeric-string array keys to integers, are not modelled. Keys are taken as given.
- `Collection::toArray()` on items that are themselves `Arrayable` is taken to be the item list as is.
- `(array)` of objects other than `stdClass` is not modelled.
- `data_get` with dotted paths in `flexible()` is not modelled.
- Accessors and casts behind `$this->{$column}` are not modelled. A record is its raw attribute bag.
- Database comparison semantics of `find()` are not modelled. Ids are compared with PHP 8's loose `==` against the requested id, as described for keys below.
- Cast.MirrorTakesLastMatch: loose `==` between a layout key and the pointer key follows PHP 8 for integer-form numeric strings: optional surrounding whitespace, an optional sign and digits. Float-form numeric strings such as `1e3` or `5.0`, and integers that overflow 64 bits, are compared as plain text.
- Cast.PlaceholderTakesLastMatch: keys are compared with the same loose `==`, with the same gap for float-form numeric strings and 64-bit overflow.
- Options.ItemOutcome: `in_array` against the ignored names uses the same loose `==`, with the same gap.
- Registry.StaticLayouts: `is_callable` is reduced to "is a closure". A `[Provider::class, 'layouts']` array or a `'Class::method'` string, which PHP would call and merge, is stored as a direct entry under its key. Calling a method by name needs the class table, which is not part of this model.
- Registry.GetLayouts: a layout instance given as the whole `layouts` setting is treated as not iterable. Which public properties `foreach` would walk on it depends on the layout classes, which are not part of this model.
- Cast.IsDepended: `$layout instanceof DependedLayout` is reduced to equality of the layout's class string with the one depended-layout class name. Subclasses, a mapped class written with a leading `\` and other letter case (PHP class names are case-insensitive) are not recognised as placeholders unless the layout is named `depended-layout`. The class hierarchy is not part of this model.
- Registry.Accept: the discovery loop catches only `TypeError` and `Error`. An `Exception` thrown by a discovered class's constructor, `shouldNotBeAutoLoaded()` or `name()` escapes `getLayouts()`. `Discovery.construct` yields only "not a layout" or a layout, so the model assumes no discovered class throws such an exception.
- PhpValues.Interpolate: collections and layout instances are interpolated as objects without `__toString`, which is a fatal `Error`. The cast and the option builder only interpolate ids, keys and pointers.
- The translation of `Unknown` by `__()` is not modelled.
- Errors raised by the registry inside `flex()` are not modelled: the record's registry is an input.
- The real filesystem walk, reflection and class loading are inputs of `Registry.Discovery`.
- `Flex::render` is not modelled: it concatenates the output of layout classes that are not part of this model.
- The caching wrapper `getLayoutsFromCache` and `flushLayoutsCache` are not modelled.
- FileAdder, the request middleware, stubs and interfaces are not part of this model.

## Findings

| source | as written | input that shows it | evidently intended | confidence | as-written member | corrected member |
|---|---|---|---|---|---|---|
| src/Concerns/HasFlexible.php:330 | `catch (ErrorException $e)` sits in namespace `Marshmallow\Nova\Flexible\Concerns` with no `use ErrorException`, so it names a class that does not exist and catches nothing. A warning for one stored layout aborts the whole option list. | record id 1 whose `layout` column holds `[{"layout":"hero"}]`, a layout without `key` | the warning is caught, that layout is skipped, and the option list is empty | not executed | Options.KeylessLayoutAsWritten | Options.KeylessLayoutCorrected |

The builder takes the catch as a parameter.

- `Options.WarningLayoutAborts` states the as-written behaviour for every input.
- `Options.WarningLayoutIsSkipped` and `Options.CorrectedAgreesWithAsWritten` state the corrected behaviour.
- The corrected builder agrees with the code wherever the code does not throw.

=== FILE: cast.dfy ===
/** The flexible-content cast pipeline of src/Concerns/HasFlexible.php: a
    stored value becomes an ordered collection of layout instances; every
    non-empty array attribute is cast in turn; and depended-layout
    placeholders are replaced by the layout they point at on another record.

    `json_decode`, the layout registry, the default layout class and the
    record table are inputs (`Env`). Every nested cast (a sub-collection
    attribute or a pointer hop to another record) spends one unit of
    `fuel`; the source has no such bound, so running out is reported as
    `OutOfFuel` instead of looping on a cyclic pointer. */
module Cast {
  import opened Results
  import opened PhpValues
  import opened Pointers
  import opened Sequences
  import opened Strings

  /** The layout class the mapping falls back to for a depended layout. */
  const DependedLayoutClass: string := "Marshmallow\\Nova\\Flexible\\Layouts\\DependedLayout"

  datatype Env = Env(
    /** `json_decode` without `assoc`: JSON objects become `Obj`, JSON
        arrays `Arr`, invalid JSON `Null`. */
    decode: string -> Value,
    /** `config('flexible.default_layout_class')`. */
    defaultClass: Value,
    /** `Flex::getLayouts(...)` for the record class, used by `flex()`. */
    registry: seq<Entry>,
    /** The rows `Model::find` searches. */
    records: seq<Record>)

  /** What one stored item contributes: a name, a key and raw attributes. */
  datatype Item = Item(name: Value, key: Value, attributes: seq<Entry>)

  /** One layout of a cast collection, under the key its item had. */
  datatype Slot = Slot(at: Key, layout: Layout)

  datatype CastError =
      /** A layout name that is not a valid array offset (`array_key_exists`
          raises a `TypeError`). */
    | IllegalOffset
      /** A placeholder whose `layout` attribute `explode` cannot take. */
    | PointerNotText
      /** A pointer with fewer than two `___`. */
    | MalformedPointer
      /** `find($id)` gave `null` and `->flex()` was called on it. */
    | RecordNotFound(id: string)
    | OutOfFuel

  // ---------------------------------------------------------------------------
  // From stored value to items

  /** `getFlexibleArrayFromValue()`: the item array, or none. A string must
      decode to a JSON array; collections and arrays are taken as they are;
      anything else has no items. */
  function Normalise(decode: string -> Value, value: Value): (r: Option<seq<Entry>>)
    ensures r.Some? <==> value.Coll? || value.Arr? || (value.Str? && decode(value.s).Arr?)
    ensures value.Arr? ==> r == Some(value.entries)
    ensures value.Coll? ==> r == Some(value.items)
    ensures value.Str? && r.Some? ==> r.value == decode(value.s).entries
  {
    match value
    case Str(s) => if decode(s).Arr? then Some(decode(s).entries) else None
    case Coll(items) => Some(items)
    case Arr(entries) => Some(entries)
    case _ => None
  }

  /** The items a value normalises to, stored again as an array or as a
      collection, normalise to themselves. */
  lemma {:induction false} NormaliseIsIdempotent(decode: string -> Value, value: Value, items: seq<Entry>)
    requires Normalise(decode, value) == Some(items)
    ensures Normalise(decode, Arr(items)) == Some(items)
    ensures Normalise(decode, Coll(items)) == Some(items)
  {
  }

  /** Stored JSON text gives the items of the value it decodes to, unless
      that value is itself text (which is not decoded twice). */
  lemma {:induction false} TextNormalisesAsDecoded(decode: string -> Value, text: string)
    requires !decode(text).Str? && !decode(text).Coll?
    ensures Normalise(decode, Str(text)) == Normalise(decode, decode(text))
  {
  }

  /** `getMappedLayout()`'s extraction: a string item is decoded first; an
      array or `stdClass` item gives its `layout`, `key` and `attributes`
      fields, a layout instance its own; an item without a name gives none. */
  function ExtractItem(decode: string -> Value, item: Value): (r: Option<Item>)
    ensures r.Some? ==> r.value.name != Null
    ensures item.Arr? ==> (r.Some? <==> GetOrNull(item.entries, StrKey("layout")) != Null)
    ensures item.Obj? ==> (r.Some? <==> GetOrNull(item.props, StrKey("layout")) != Null)
    ensures item.Arr? && r.Some? ==>
              && r.value.name == GetOrNull(item.entries, StrKey("layout"))
              && r.value.key == GetOrNull(item.entries, StrKey("key"))
              && (!Truthy(GetOrNull(item.entries, StrKey("attributes"))) ==> r.value.attributes == [])
              && (Truthy(GetOrNull(item.entries, StrKey("attributes"))) ==>
                    r.value.attributes == ToArray(GetOrNull(item.entries, StrKey("attributes"))))
    ensures item.Obj? && r.Some? ==>
              && r.value.name == GetOrNull(item.props, StrKey("layout"))
              && r.value.key == GetOrNull(item.props, StrKey("key"))
              && r.value.attributes == ToArray(GetOrNull(item.props, StrKey("attributes")))
              && (GetOrNull(item.props, StrKey("attributes")) == Null ==> r.value.attributes == [])
    ensures !(item.Str? || item.Arr? || item.Obj? || item.Lay?) ==> r.None?
  {
    var v := if item.Str? then decode(item.s) else item;
    var it := match v
      case Arr(e) =>
        var attrs := GetOrNull(e, StrKey("attributes"));
        Item(GetOrNull(e, StrKey("layout")), GetOrNull(e, StrKey("key")),
             if Has(e, StrKey("attributes")) && Truthy(attrs) then ToArray(attrs) else [])
      case Obj(p) =>
        Item(GetOrNull(p, StrKey("layout")), GetOrNull(p, StrKey("key")), ToArray(GetOrNull(p, StrKey("attributes"))))
      case Lay(l) => Item(l.name, l.key, l.attributes)
      case _ => Item(Null, Null, []);
    if it.name == Null then None else Some(it)
  }

  /** An item stored as a JSON array and the same item stored as a JSON
      object (`json_decode` with and without `assoc`) give the same layout
      fields, unless its `attributes` is a scalar, which `(array)` wraps. */
  lemma {:induction false} ArrayAndObjectItemsAgree(decode: string -> Value, fields: seq<Entry>)
    requires var a := GetOrNull(fields, StrKey("attributes")); a.Null? || a.Arr? || a.Obj?
    ensures ExtractItem(decode, Arr(fields)) == ExtractItem(decode, Obj(fields))
  {
  }

  /** An item stored as JSON text is extracted from its decoded value. */
  lemma {:induction false} TextItemIsDecoded(decode: string -> Value, text: string)
    requires !decode(text).Str?
    ensures ExtractItem(decode, Str(text)) == ExtractItem(decode, decode(text))
  {
  }

  /** A layout instance as an item gives its own name, key and attributes. */
  lemma {:induction false} ExtractLayoutInstance(decode: string -> Value, l: Layout)
    requires l.name != Null
    ensures ExtractItem(decode, Lay(l)) == Some(Item(l.name, l.key, l.attributes))
  {
  }

  /** The filter `array_filter` applies after mapping: an item survives
      exactly when it has a name. */
  function Named(decode: string -> Value): Entry -> bool {
    (e: Entry) => ExtractItem(decode, e.val).Some?
  }

  /** `array_key_exists($name, $layoutMapping)` then `$layoutMapping[$name]`,
      or the default class. */
  function LayoutClass(mapping: seq<Entry>, default: Value, k: Key): Value {
    match Get(mapping, k)
    case Some(cls) => cls
    case None => default
  }

  /** `filled()` on an array: the attributes the cast recurses into. */
  predicate NonEmptyArray(v: Value) {
    v.Arr? && |v.entries| > 0
  }

  /** A cast collection as a PHP value. */
  function AsCollection(slots: seq<Slot>): (r: Value)
    ensures r.Coll? && |r.items| == |slots|
    ensures forall i | 0 <= i < |slots| :: r.items[i] == Entry(slots[i].at, Lay(slots[i].layout))
  {
    Coll(seq(|slots|, i requires 0 <= i < |slots| => Entry(slots[i].at, Lay(slots[i].layout))))
  }

  /** Whether a layout of a cast collection is a placeholder: its class is the
      depended-layout class (`instanceof` read as equality of class names),
      or its title (which is its name) loosely equals `depended-layout`. */
  predicate IsDepended(l: Layout): (r: bool)
    ensures l.name.Str? ==> (r <==> l.cls == Str(DependedLayoutClass) || l.name.s == DependedLayoutName)
    ensures l.cls == Str(DependedLayoutClass) ==> r
  {
    WordIsNotNumeric(DependedLayoutName);
    l.cls == Str(DependedLayoutClass) || LooseEqualsText(l.name, DependedLayoutName)
  }

  /** `$layout->key == $layout_key`. */
  predicate KeyMatches(s: Slot, key: string) {
    LooseEqualsText(s.layout.key, key)
  }

  /** Keys compare as PHP compares them: a stored key `"01"`, `" 1"` or `1`
      matches the pointer key `1`, while `"1a"` does not. */
  lemma {:induction false} NumericKeysMatch(l: Layout)
    ensures l.key == Str("01") || l.key == Str(" 1") || l.key == Int(1) ==> KeyMatches(Slot(IntKey(0), l), "1")
    ensures l.key == Str("1a") ==> !KeyMatches(Slot(IntKey(0), l), "1")
  {
    assert AllDigits("01") && DigitsValue("01") == 1 by {
      assert "01"[..1] == "0";
    }
    assert TrimLeft(" 1") == "1" by {
      assert " 1"[1..] == "1";
    }
    assert TrimRight("1") == "1";
    assert IntegerText("1") == Some(1);
    assert IntegerText("01") == Some(1);
    assert IntegerText(" 1") == Some(1);
    assert !AllDigits("1a") by {
      assert !IsDigit("1a"[1]);
    }
    assert IntegerText("1a").None?;
  }

  /** The inner `each` of the resolver: walking the target collection in
      order, every layout whose key matches overwrites the slot. */
  function Mirror(targets: seq<Slot>, key: string, current: Layout): Layout {
    if |targets| == 0 then current
    else Mirror(targets[1..], key, if KeyMatches(targets[0], key) then targets[0].layout else current)
  }

  // ---------------------------------------------------------------------------
  // The mutually recursive cast

  /** `toFlexible()`: normalise, map every item to a layout keeping its key,
      drop the unnamed ones, then resolve the placeholders. */
  function ToFlexible(env: Env, fuel: nat, value: Value, mapping: seq<Entry>, eager: seq<Entry>): (r: Result<seq<Slot>, CastError>)
    ensures Normalise(env.decode, value).None? ==> r == Success([])
    ensures r.Success? && Normalise(env.decode, value).Some? ==>
              var items := Normalise(env.decode, value).value;
              var ix := Positions(items, Named(env.decode));
              |r.value| == |ix| && forall i | 0 <= i < |ix| :: r.value[i].at == items[ix[i]].key
    decreases fuel, 4
  {
    match Normalise(env.decode, value)
    case None => Success([])
    case Some(items) =>
      var mapped :- MapLayouts(env, fuel, items, mapping, eager);
      ResolveAll(env, fuel, mapped)
  }

  /** `array_filter(array_map(getMappedLayout, $flexible))`: the layouts of
      the named items, in order, each under its item's key. */
  function MapLayouts(env: Env, fuel: nat, items: seq<Entry>, mapping: seq<Entry>, eager: seq<Entry>): (r: Result<seq<Slot>, CastError>)
    ensures r.Success? ==>
              var ix := Positions(items, Named(env.decode));
              |r.value| == |ix| &&
              forall i | 0 <= i < |ix| ::
                r.value[i].at == items[ix[i]].key &&
                CreateMappedLayout(env, fuel, ExtractItem(env.decode, items[ix[i]].val).value, mapping, eager) == Success(r.value[i].layout)
    decreases fuel, 3, |items|
  {
    if |items| == 0 then Success([])
    else
      var n := |items| - 1;
      var done :- MapLayouts(env, fuel, items[..n], mapping, eager);
      match ExtractItem(env.decode, items[n].val)
      case None => Success(done)
      case Some(it) =>
        var l :- CreateMappedLayout(env, fuel, it, mapping, eager);
        Success(done + [Slot(items[n].key, l)])
  }

  /** `createMappedLayout()`: look up the class, build the layout with the
      item's name, key and attributes, then cast its attributes. */
  function CreateMappedLayout(env: Env, fuel: nat, it: Item, mapping: seq<Entry>, eager: seq<Entry>): (r: Result<Layout, CastError>)
    ensures r.Failure? && OffsetKey(it.name).Some? ==> CastAttributes(env, fuel, it.attributes, mapping, eager).Failure?
    ensures r.Success? ==>
              && OffsetKey(it.name).Some?
              && CastAttributes(env, fuel, it.attributes, mapping, eager).Success?
              && r.value == Layout(LayoutClass(mapping, env.defaultClass, OffsetKey(it.name).value), it.name, it.key,
                                   CastAttributes(env, fuel, it.attributes, mapping, eager).value, eager)
    decreases fuel, 2
  {
    match OffsetKey(it.name)
    case None => Failure(IllegalOffset)
    case Some(k) =>
      var attrs :- CastAttributes(env, fuel, it.attributes, mapping, eager);
      Success(Layout(LayoutClass(mapping, env.defaultClass, k), it.name, it.key, attrs, eager))
  }

  /** The attribute loop of `createMappedLayout()`: every non-empty array is
      replaced, in place, by the collection its own cast gives; everything
      else is kept. */
  function CastAttributes(env: Env, fuel: nat, attrs: seq<Entry>, mapping: seq<Entry>, eager: seq<Entry>): (r: Result<seq<Entry>, CastError>)
    ensures r.Success? ==> |r.value| == |attrs|
    ensures r.Success? ==> forall i | 0 <= i < |attrs| ::
              r.value[i].key == attrs[i].key &&
              (!NonEmptyArray(attrs[i].val) ==> r.value[i].val == attrs[i].val) &&
              (NonEmptyArray(attrs[i].val) ==>
                 && fuel > 0
                 && ToFlexible(env, fuel - 1, attrs[i].val, mapping, eager).Success?
                 && r.value[i].val == AsCollection(ToFlexible(env, fuel - 1, attrs[i].val, mapping, eager).value))
    decreases fuel, 1, |attrs|
  {
    if |attrs| == 0 then Success([])
    else
      var n := |attrs| - 1;
      var done :- CastAttributes(env, fuel, attrs[..n], mapping, eager);
      var a := attrs[n];
      if !NonEmptyArray(a.val) then Success(done + [a])
      else if fuel == 0 then Failure(OutOfFuel)
      else
        var sub :- ToFlexible(env, fuel - 1, a.val, mapping, eager);
        Success(done + [Entry(a.key, AsCollection(sub))])
  }

  /** The outer `each` of `toFlexible()`: every slot of the original
      collection is looked at once; only placeholders can change. */
  function ResolveAll(env: Env, fuel: nat, slots: seq<Slot>): (r: Result<seq<Slot>, CastError>)
    ensures r.Success? ==> |r.value| == |slots|
    ensures r.Success? ==> forall i | 0 <= i < |slots| ::
              ResolveSlot(env, fuel, slots[i]) == Success(r.value[i])
    decreases fuel, 3, |slots|
  {
    if |slots| == 0 then Success([])
    else
      var n := |slots| - 1;
      var done :- ResolveAll(env, fuel, slots[..n]);
      var s :- ResolveSlot(env, fuel, slots[n]);
      assert forall i | 0 <= i < n :: (done + [s])[i] == done[i] && slots[..n][i] == slots[i];
      Success(done + [s])
  }

  /** One placeholder: split its `layout` attribute into a pointer, find the
      record, cast that record's column with the registry's layouts, and take
      the last layout whose key matches; with no match the placeholder stays. */
  function ResolveSlot(env: Env, fuel: nat, s: Slot): (r: Result<Slot, CastError>)
    ensures r.Success? ==> r.value.at == s.at
    ensures !IsDepended(s.layout) ==> r == Success(s)
    decreases fuel, 2
  {
    if !IsDepended(s.layout) then Success(s)
    else
      match Interpolate(GetOrNull(s.layout.attributes, StrKey("layout")))
      case Text(text) =>
        (match ParsePointer(text)
         case Failure(_) => Failure(CastError.MalformedPointer)
         case Success(p) =>
           match Find(env.records, p.id)
           case None => Failure(RecordNotFound(p.id))
           case Some(rec) =>
             if fuel == 0 then Failure(OutOfFuel)
             else
               var targets :- FlexColumn(env, fuel - 1, rec, p.column, []);
               Success(Slot(s.at, Mirror(targets, p.key, s.layout))))
      case _ => Failure(PointerNotText)
  }

  // ---------------------------------------------------------------------------
  // Entry points

  /** `cast($value, $layoutMapping)`: a falsy value is cast as `null`. */
  function CastValue(env: Env, fuel: nat, value: Value, mapping: seq<Entry>): (r: Result<seq<Slot>, CastError>)
    ensures !Truthy(value) ==> r == Success([])
    ensures Truthy(value) ==> r == ToFlexible(env, fuel, value, mapping, [])
  {
    ToFlexible(env, fuel, if Truthy(value) then value else Null, mapping, [])
  }

  /** `flex($column, $with)`: the record's column cast with the registry's
      layouts. */
  function FlexColumn(env: Env, fuel: nat, rec: Record, column: string, eager: seq<Entry>): (r: Result<seq<Slot>, CastError>)
    ensures !Has(rec.attributes, StrKey(column)) ==> r == Success([])
    ensures r.Success? && Normalise(env.decode, Column(rec, column)).Some? ==>
              var items := Normalise(env.decode, Column(rec, column)).value;
              |r.value| == |Positions(items, Named(env.decode))|
    decreases fuel, 5
  {
    ToFlexible(env, fuel, Column(rec, column), env.registry, eager)
  }

  // ---------------------------------------------------------------------------
  // Properties

  /** The placeholder ends up holding the last target layout whose key
      matches, or itself when none matches. */
  lemma {:induction false} MirrorTakesLastMatch(targets: seq<Slot>, key: string, current: Layout)
    ensures (forall i | 0 <= i < |targets| :: !KeyMatches(targets[i], key)) ==> Mirror(targets, key, current) == current
    ensures forall i | 0 <= i < |targets| && KeyMatches(targets[i], key) && (forall j | i < j < |targets| :: !KeyMatches(targets[j], key)) ::
              Mirror(targets, key, current) == targets[i].layout
    decreases |targets|
  {
    if forall i | 0 <= i < |targets| :: !KeyMatches(targets[i], key) {
      MirrorNoMatch(targets, key, current);
    }
    forall i | 0 <= i < |targets| && KeyMatches(targets[i], key) && (forall j | i < j < |targets| :: !KeyMatches(targets[j], key))
      ensures Mirror(targets, key, current) == targets[i].layout
    {
      MirrorLastMatch(targets, key, current, i);
    }
  }

  lemma {:induction false} MirrorNoMatch(targets: seq<Slot>, key: string, current: Layout)
    requires forall i | 0 <= i < |targets| :: !KeyMatches(targets[i], key)
    ensures Mirror(targets, key, current) == current
    decreases |targets|
  {
    if |targets| > 0 {
      var rest := targets[1..];
      assert forall i | 0 <= i < |rest| :: rest[i] == targets[i + 1];
      MirrorNoMatch(rest, key, current);
    }
  }

  lemma {:induction false} MirrorLastMatch(targets: seq<Slot>, key: string, current: Layout, i: nat)
    requires i < |targets| && KeyMatches(targets[i], key)
    requires forall j | i < j < |targets| :: !KeyMatches(targets[j], key)
    ensures Mirror(targets, key, current) == targets[i].layout
    decreases |targets|
  {
    var rest := targets[1..];
    assert forall j | 0 <= j < |rest| :: rest[j] == targets[j + 1];
    if i == 0 {
      MirrorNoMatch(rest, key, targets[0].layout);
    } else {
      var next := if KeyMatches(targets[0], key) then targets[0].layout else current;
      MirrorLastMatch(rest, key, next, i - 1);
    }
  }

  /** The pointer a placeholder carries in its `layout` attribute, as the
      text `explode` receives. */
  function PointerText(l: Layout): Conversion {
    Interpolate(GetOrNull(l.attributes, StrKey("layout")))
  }

  /** A placeholder whose pointer names an existing record is replaced, at
      the same position, by the last layout of that record's column whose key
      matches the pointer's key, and stays as it is when none matches. */
  lemma {:induction false} PlaceholderTakesLastMatch(env: Env, fuel: nat, s: Slot, p: Pointer, rec: Record, targets: seq<Slot>)
    requires IsDepended(s.layout) && PointerText(s.layout).Text?
    requires ParsePointer(PointerText(s.layout).s) == Success(p)
    requires Find(env.records, p.id) == Some(rec)
    requires fuel > 0 && ToFlexible(env, fuel - 1, Column(rec, p.column), env.registry, []) == Success(targets)
    ensures (forall i | 0 <= i < |targets| :: !KeyMatches(targets[i], p.key)) ==> ResolveSlot(env, fuel, s) == Success(s)
    ensures forall i | 0 <= i < |targets| && KeyMatches(targets[i], p.key) && (forall j | i < j < |targets| :: !KeyMatches(targets[j], p.key)) ::
              ResolveSlot(env, fuel, s) == Success(Slot(s.at, targets[i].layout))
  {
    MirrorTakesLastMatch(targets, p.key, s.layout);
  }

  /** A placeholder whose pointer has fewer than two `___` fails the cast. */
  lemma {:induction false} MalformedPointerFails(env: Env, fuel: nat, s: Slot)
    requires IsDepended(s.layout) && PointerText(s.layout).Text?
    requires |Explode(PointerText(s.layout).s, Delimiter)| < 3
    ensures ResolveSlot(env, fuel, s) == Failure(CastError.MalformedPointer)
  {
  }

  /** The pointer `5___body` is malformed. */
  lemma {:induction false} SingleDelimiterPointerFails(env: Env, fuel: nat, s: Slot)
    requires IsDepended(s.layout) && GetOrNull(s.layout.attributes, StrKey("layout")) == Str("5___body")
    ensures ResolveSlot(env, fuel, s) == Failure(CastError.MalformedPointer)
  {
    assert "5___body" == "5" + Delimiter + "body";
    assert Separable("5") by {
      forall j: nat | j <= 1
        ensures !OccursAt("5", Delimiter, j)
      {
      }
    }
    assert !Contains("body", Delimiter) by {
      forall j: nat | j <= 4
        ensures !OccursAt("body", Delimiter, j)
      {
        if j + 3 <= 4 {
          assert "body"[j..j + 3][0] == "body"[j] != '_';
        }
      }
    }
    OneDelimiterIsMalformed("5", "body");
  }

  /** A pointer to a record that does not exist fails the cast. */
  lemma {:induction false} MissingRecordFails(env: Env, fuel: nat, s: Slot, p: Pointer)
    requires IsDepended(s.layout) && PointerText(s.layout).Text?
    requires ParsePointer(PointerText(s.layout).s) == Success(p)
    requires forall i | 0 <= i < |env.records| :: !LooseEqualsText(Column(env.records[i], "id"), p.id)
    ensures ResolveSlot(env, fuel, s) == Failure(RecordNotFound(p.id))
  {
  }

  /** The layout `createMappedLayout()` builds for an item that has a name. */
  function MappedLayout(env: Env, fuel: nat, item: Value, mapping: seq<Entry>, eager: seq<Entry>): Result<Layout, CastError>
    requires ExtractItem(env.decode, item).Some?
  {
    CreateMappedLayout(env, fuel, ExtractItem(env.decode, item).value, mapping, eager)
  }

  /** A successful cast, slot by slot: slot `i` comes from the `i`-th named
      item, sits under that item's key, and is the layout built for the item,
      put through the resolver; a layout that is not a placeholder comes out
      exactly as built. */
  lemma {:induction false} CastSlots(env: Env, fuel: nat, value: Value, mapping: seq<Entry>, eager: seq<Entry>, items: seq<Entry>, out: seq<Slot>)
    requires Normalise(env.decode, value) == Some(items)
    requires ToFlexible(env, fuel, value, mapping, eager) == Success(out)
    ensures var ix := Positions(items, Named(env.decode));
            |out| == |ix| &&
            forall i | 0 <= i < |ix| ::
              && MappedLayout(env, fuel, items[ix[i]].val, mapping, eager).Success?
              && ResolveSlot(env, fuel, Slot(items[ix[i]].key, MappedLayout(env, fuel, items[ix[i]].val, mapping, eager).value)) == Success(out[i])
              && (!IsDepended(MappedLayout(env, fuel, items[ix[i]].val, mapping, eager).value) ==>
                    out[i] == Slot(items[ix[i]].key, MappedLayout(env, fuel, items[ix[i]].val, mapping, eager).value))
  {
    var mapped := MapLayouts(env, fuel, items, mapping, eager).value;
    assert ResolveAll(env, fuel, mapped) == Success(out);
    var ix := Positions(items, Named(env.decode));
    forall i | 0 <= i < |ix|
      ensures mapped[i] == Slot(items[ix[i]].key, MappedLayout(env, fuel, items[ix[i]].val, mapping, eager).value)
    {
    }
  }

  /** Attributes that hold no non-empty array are left as they are. */
  lemma {:induction false} CastAttributesFixesCast(env: Env, fuel: nat, attrs: seq<Entry>, mapping: seq<Entry>, eager: seq<Entry>)
    requires forall i | 0 <= i < |attrs| :: !NonEmptyArray(attrs[i].val)
    ensures CastAttributes(env, fuel, attrs, mapping, eager) == Success(attrs)
    decreases |attrs|
  {
    if |attrs| > 0 {
      var n := |attrs| - 1;
      var prefix := attrs[..n];
      assert forall i | 0 <= i < n :: prefix[i] == attrs[i];
      CastAttributesFixesCast(env, fuel, prefix, mapping, eager);
      assert !NonEmptyArray(attrs[n].val);
      PrefixLast(attrs);
    }
  }

  /** Building a layout again from a built layout's name, key and attributes
      gives the same layout: cast attributes hold collections, not arrays. */
  lemma {:induction false} RebuildLayout(env: Env, fuel: nat, fuel': nat, it: Item, mapping: seq<Entry>, eager: seq<Entry>)
    requires CreateMappedLayout(env, fuel, it, mapping, eager).Success?
    ensures var l := CreateMappedLayout(env, fuel, it, mapping, eager).value;
            CreateMappedLayout(env, fuel', Item(l.name, l.key, l.attributes), mapping, eager) == Success(l)
  {
    var l := CreateMappedLayout(env, fuel, it, mapping, eager).value;
    var attrs := l.attributes;
    forall i | 0 <= i < |attrs|
      ensures !NonEmptyArray(attrs[i].val)
    {
      if NonEmptyArray(it.attributes[i].val) {
        assert attrs[i].val.Coll?;
      }
    }
    CastAttributesFixesCast(env, fuel', attrs, mapping, eager);
  }

  /** Mapping the layouts of a mapped collection again, with any fuel,
      gives back the same slots: names, keys, classes and attributes are
      all stable. */
  lemma {:induction false} RemapIsIdentity(env: Env, fuel: nat, fuel': nat, items: seq<Entry>, mapping: seq<Entry>, eager: seq<Entry>, slots: seq<Slot>)
    requires MapLayouts(env, fuel, items, mapping, eager) == Success(slots)
    ensures MapLayouts(env, fuel', AsCollection(slots).items, mapping, eager) == Success(slots)
    decreases |items|
  {
    if |items| > 0 {
      var n := |items| - 1;
      var done := MapLayouts(env, fuel, items[..n], mapping, eager).value;
      RemapIsIdentity(env, fuel, fuel', items[..n], mapping, eager, done);
      match ExtractItem(env.decode, items[n].val)
      case None =>
        assert slots == done;
      case Some(it) =>
        var l := CreateMappedLayout(env, fuel, it, mapping, eager).value;
        assert slots == done + [Slot(items[n].key, l)];
        var before := AsCollection(done).items;
        var last := Entry(items[n].key, Lay(l));
        AsCollectionSnoc(done, Slot(items[n].key, l));
        Snoc(before, last);
        RebuiltItem(env, fuel, fuel', it, l, mapping, eager);
        MapLayoutsSnoc(env, fuel', before + [last], mapping, eager, done, Item(l.name, l.key, l.attributes), l);
    }
  }

  lemma {:induction false} AsCollectionSnoc(done: seq<Slot>, s: Slot)
    ensures AsCollection(done + [s]).items == AsCollection(done).items + [Entry(s.at, Lay(s.layout))]
  {
  }

  /** A built layout, read back as an item, rebuilds to itself. */
  lemma {:induction false} RebuiltItem(env: Env, fuel: nat, fuel': nat, it: Item, l: Layout, mapping: seq<Entry>, eager: seq<Entry>)
    requires it.name != Null && CreateMappedLayout(env, fuel, it, mapping, eager) == Success(l)
    ensures ExtractItem(env.decode, Lay(l)) == Some(Item(l.name, l.key, l.attributes))
    ensures CreateMappedLayout(env, fuel', Item(l.name, l.key, l.attributes), mapping, eager) == Success(l)
  {
    ExtractLayoutInstance(env.decode, l);
    RebuildLayout(env, fuel, fuel', it, mapping, eager);
  }

  /** Mapping one more named item appends its layout. */
  lemma {:induction false} MapLayoutsSnoc(env: Env, fuel: nat, items: seq<Entry>, mapping: seq<Entry>, eager: seq<Entry>, done: seq<Slot>, it: Item, l: Layout)
    requires |items| > 0 && MapLayouts(env, fuel, items[..|items| - 1], mapping, eager) == Success(done)
    requires ExtractItem(env.decode, items[|items| - 1].val) == Some(it)
    requires CreateMappedLayout(env, fuel, it, mapping, eager) == Success(l)
    ensures MapLayouts(env, fuel, items, mapping, eager) == Success(done + [Slot(items[|items| - 1].key, l)])
  {
  }

  /** The stored item `{layout: "x", key: "k1"}`. */
  const SampleItem: Value := Arr([Entry(StrKey("layout"), Str("x")), Entry(StrKey("key"), Str("k1"))])

  /** The layout the cast builds for `SampleItem`. */
  function SampleLayout(env: Env, mapping: seq<Entry>, eager: seq<Entry>): Layout {
    Layout(LayoutClass(mapping, env.defaultClass, StrKey("x")), Str("x"), Str("k1"), [], eager)
  }

  lemma {:induction false} MapSampleItem(env: Env, fuel: nat, mapping: seq<Entry>, eager: seq<Entry>)
    ensures MapLayouts(env, fuel, [Entry(IntKey(0), SampleItem)], mapping, eager) == Success([Slot(IntKey(0), SampleLayout(env, mapping, eager))])
  {
    var items := [Entry(IntKey(0), SampleItem)];
    GetLast(SampleItem.entries, StrKey("attributes"));
    assert ExtractItem(env.decode, SampleItem) == Some(Item(Str("x"), Str("k1"), []));
    assert CreateMappedLayout(env, fuel, Item(Str("x"), Str("k1"), []), mapping, eager) == Success(SampleLayout(env, mapping, eager));
    assert items[..0] == [] && items[0].val == SampleItem;
    assert MapLayouts(env, fuel, items[..0], mapping, eager) == Success([]);
    var m := MapLayouts(env, fuel, items, mapping, eager);
    assert m.Success?;
    assert m.value == [Slot(IntKey(0), SampleLayout(env, mapping, eager))];
  }

  lemma {:induction false} CastSampleArray(env: Env, fuel: nat, mapping: seq<Entry>, eager: seq<Entry>)
    requires LayoutClass(mapping, env.defaultClass, StrKey("x")) != Str(DependedLayoutClass)
    ensures ToFlexible(env, fuel, Arr([Entry(IntKey(0), SampleItem)]), mapping, eager) == Success([Slot(IntKey(0), SampleLayout(env, mapping, eager))])
  {
    var slot := Slot(IntKey(0), SampleLayout(env, mapping, eager));
    MapSampleItem(env, fuel, mapping, eager);
    assert !LooseEqualsText(Str("x"), DependedLayoutName);
    assert ResolveSlot(env, fuel, slot) == Success(slot);
    assert [slot][..0] == [];
    assert ResolveAll(env, fuel, [slot]) == Success([slot]);
  }

  /** An attribute holding a non-empty array becomes, under the same key,
      the collection its own cast gives. */
  lemma {:induction false} NestedArrayBecomesCollection(env: Env, fuel: nat, k: Key, v: Value, sub: seq<Slot>, mapping: seq<Entry>, eager: seq<Entry>)
    requires fuel > 0 && NonEmptyArray(v)
    requires ToFlexible(env, fuel - 1, v, mapping, eager) == Success(sub)
    ensures CastAttributes(env, fuel, [Entry(k, v)], mapping, eager) == Success([Entry(k, AsCollection(sub))])
  {
    var attrs := [Entry(k, v)];
    assert attrs[..0] == [] && attrs[0] == Entry(k, v);
    assert CastAttributes(env, fuel, attrs[..0], mapping, eager) == Success([]);
    assert CastAttributes(env, fuel, attrs, mapping, eager) == Success([] + [Entry(k, AsCollection(sub))]);
    assert [] + [Entry(k, AsCollection(sub))] == [Entry(k, AsCollection(sub))];
  }
}

=== FILE: options.dfy ===
/** The option list of the depended-layout select, the pure builder inside
    `getOptionsForDependedLayoutSelect()` of src/Concerns/HasFlexible.php:
    for every record, every configured column and every top-level layout
    stored there that is not ignored, one option keyed
    `{id}___{column}___{key}` with a label and a group.

    The query result, `json_decode` and the record class's short name are
    inputs. The try/catch around each layout is modelled by `catchWarnings`:
    the source names `ErrorException` inside its own namespace without
    importing it, so the catch never fires (`catchWarnings == false`, the
    code as written); `catchWarnings == true` is the evident intent, where a
    PHP warning raised for one layout skips that layout. */
module Options {
  import opened Results
  import opened PhpValues
  import opened Pointers
  import opened Sequences
  import opened Strings

  /** `getDependedLayoutSelectColumns()` unless a model overrides it. */
  const DefaultSelectColumns: seq<string> := ["layout"]

  /** `getLayoutsToIgnoreFromDependendLayout()` unless a model overrides it. */
  const DefaultIgnoredLayouts: seq<string> := []

  datatype OptionEntry = OptionEntry(caption: string, group: string)

  /** What handling one stored layout gives: nothing, an option, or an
      exception (a warning turned into an `ErrorException`, or an error). */
  datatype Outcome = Skipped | Emitted(key: string, option: OptionEntry) | Raised(isWarning: bool)

  /** An exception escapes the builder: the whole option list is lost. */
  datatype OptionsError = UncaughtException

  /** The builder's fixed inputs. */
  datatype Context = Context(
    catchWarnings: bool,
    /** `json_decode` on a column's text. */
    decode: string -> Value,
    /** The ignore list after `depended-layout` was appended. */
    ignore: seq<string>,
    /** `ReflectionClass::getShortName()` of the record class. */
    shortName: string)

  /** `['label' => $label, 'group' => $group]`. */
  function OptionValue(o: OptionEntry): Value {
    Arr([Entry(StrKey("label"), Str(o.caption)), Entry(StrKey("group"), Str(o.group))])
  }

  /** `$layout->attributes->title`. */
  function Title(layout: Value): Value {
    PropOf(PropOf(layout, "attributes"), "title")
  }

  /** `$layout->attributes->name`. */
  function LayoutName(layout: Value): Value {
    PropOf(PropOf(layout, "attributes"), "name")
  }

  /** `getDependedLayoutLabel()`: the layout's `attributes->title` when set,
      else its `attributes->name`, else `Unknown`; returned as `string`, so a
      set value that is not a scalar is a `TypeError`, an integer becomes its
      decimal text and a boolean `"1"` or `""`. */
  function Label(layout: Value): (r: Conversion)
    ensures r.Text? || r.Fatal?
    ensures Title(layout).Str? ==> r == Text(Title(layout).s)
    ensures Title(layout).Int? ==> r == Text(DecimalText(Title(layout).i)) && IntegerText(r.s) == Some(Title(layout).i)
    ensures Title(layout).Bool? ==> r == Text(if Title(layout).b then "1" else "")
    ensures Title(layout) != Null && !(Title(layout).Str? || Title(layout).Int? || Title(layout).Bool?) ==> r == Fatal
    ensures Title(layout) != Null && r.Text? ==> LooseEqualsText(Title(layout), r.s)
    ensures Title(layout) == Null && LayoutName(layout).Str? ==> r == Text(LayoutName(layout).s)
    ensures Title(layout) == Null && LayoutName(layout).Int? ==>
              r == Text(DecimalText(LayoutName(layout).i)) && IntegerText(r.s) == Some(LayoutName(layout).i)
    ensures Title(layout) == Null && LayoutName(layout).Bool? ==> r == Text(if LayoutName(layout).b then "1" else "")
    ensures Title(layout) == Null && LayoutName(layout) != Null && !(LayoutName(layout).Str? || LayoutName(layout).Int? || LayoutName(layout).Bool?) ==>
              r == Fatal
    ensures Title(layout) == Null && LayoutName(layout) != Null && r.Text? ==> LooseEqualsText(LayoutName(layout), r.s)
    ensures Title(layout) == Null && LayoutName(layout) == Null ==> r == Text("Unknown")
  {
    if Title(layout) != Null then ReturnedText(Title(layout))
    else if LayoutName(layout) != Null then ReturnedText(LayoutName(layout))
    else Text("Unknown")
  }

  /** `getDependedLayoutGroup()`: the record's `name` when truthy, else
      `"{ShortName}: #{id}"`. The name is returned as `string` (a `TypeError`
      unless it is a scalar); the id is interpolated (a warning for an array,
      an `Error` for an object). */
  function Group(rec: Record, shortName: string): (r: Conversion)
    ensures Truthy(Column(rec, "name")) && Column(rec, "name").Str? ==> r == Text(Column(rec, "name").s)
    ensures Truthy(Column(rec, "name")) && Column(rec, "name").Int? ==> r == Text(DecimalText(Column(rec, "name").i))
    ensures Truthy(Column(rec, "name")) && Column(rec, "name").Bool? ==> r == Text("1")
    ensures Truthy(Column(rec, "name")) && r.Text? ==> LooseEqualsText(Column(rec, "name"), r.s)
    ensures Truthy(Column(rec, "name")) && !(Column(rec, "name").Str? || Column(rec, "name").Int? || Column(rec, "name").Bool?) ==>
              r == Fatal
    ensures !Truthy(Column(rec, "name")) && Interpolate(Column(rec, "id")).Text? ==>
              r == Text(shortName + ": #" + Interpolate(Column(rec, "id")).s)
    ensures !Truthy(Column(rec, "name")) && Column(rec, "id").Int? ==>
              && r == Text(shortName + ": #" + DecimalText(Column(rec, "id").i))
              && IntegerText(r.s[|shortName + ": #"|..]) == Some(Column(rec, "id").i)
    ensures !Truthy(Column(rec, "name")) && !Interpolate(Column(rec, "id")).Text? ==> r == Interpolate(Column(rec, "id"))
  {
    var name := Column(rec, "name");
    if Truthy(name) then ReturnedText(name)
    else
      match Interpolate(Column(rec, "id"))
      case Text(id) =>
        var head := shortName + ": #";
        assert (head + id)[|head|..] == id;
        Text(head + id)
      case c => c
  }

  function Raise(c: Conversion): Outcome {
    Raised(c.Warning?)
  }

  /** The body of the `try`: read the layout's name (a warning when the item
      is not an object with a `layout` property), skip ignored names, build
      the composite key from the record id, the column and the layout's key
      (a warning when the key is missing), then the label and the group. */
  function ItemOutcome(ignore: seq<string>, shortName: string, rec: Record, column: string, layout: Value): (r: Outcome)
    ensures r.Emitted? ==>
              && HasProp(layout, "layout") && !LooselyIn(PropOf(layout, "layout"), ignore)
              && HasProp(layout, "key")
              && Interpolate(Column(rec, "id")).Text?
              && Interpolate(PropOf(layout, "key")).Text?
              && r.key == CompositeKey(Interpolate(Column(rec, "id")).s, column, Interpolate(PropOf(layout, "key")).s)
              && Label(layout) == Text(r.option.caption)
              && Group(rec, shortName) == Text(r.option.group)
    ensures (&& HasProp(layout, "layout") && !LooselyIn(PropOf(layout, "layout"), ignore)
             && HasProp(layout, "key")
             && Interpolate(Column(rec, "id")).Text? && Interpolate(PropOf(layout, "key")).Text?
             && Label(layout).Text? && Group(rec, shortName).Text?) ==>
              r == Emitted(CompositeKey(Interpolate(Column(rec, "id")).s, column, Interpolate(PropOf(layout, "key")).s),
                           OptionEntry(Label(layout).s, Group(rec, shortName).s))
    ensures r == Skipped <==> HasProp(layout, "layout") && LooselyIn(PropOf(layout, "layout"), ignore)
    ensures !HasProp(layout, "layout") ==> r == Raised(true)
    ensures (&& HasProp(layout, "layout") && !LooselyIn(PropOf(layout, "layout"), ignore)
             && Interpolate(Column(rec, "id")).Text? && !HasProp(layout, "key")) ==> r == Raised(true)
  {
    if !HasProp(layout, "layout") then Raised(true)
    else if LooselyIn(PropOf(layout, "layout"), ignore) then Skipped
    else
      match Interpolate(Column(rec, "id"))
      case Text(id) =>
        if !HasProp(layout, "key") then Raised(true)
        else
          (match Interpolate(PropOf(layout, "key"))
           case Text(key) =>
             (match Label(layout)
              case Text(caption) =>
                (match Group(rec, shortName)
                 case Text(group) => Emitted(CompositeKey(id, column, key), OptionEntry(caption, group))
                 case c => Raise(c))
              case c => Raise(c))
           case c => Raise(c))
      case c => Raise(c)
  }

  /** The `catch`: when it is in force, a warning skips the layout. */
  function Caught(catchWarnings: bool, o: Outcome): (r: Outcome)
    ensures catchWarnings && o.Raised? && o.isWarning ==> r == Skipped
    ensures !(catchWarnings && o.Raised? && o.isWarning) ==> r == o
  {
    if catchWarnings && o.Raised? && o.isWarning then Skipped else o
  }

  /** The loop over one column's layouts: `$options[$key] = ...`, a later
      option with the same key overwriting an earlier one in place. */
  function EmitLayouts(ctx: Context, rec: Record, column: string, layouts: seq<Entry>, options: seq<Entry>): Result<seq<Entry>, OptionsError>
    decreases |layouts|
  {
    if |layouts| == 0 then Success(options)
    else
      var n := |layouts| - 1;
      var acc :- EmitLayouts(ctx, rec, column, layouts[..n], options);
      match Caught(ctx.catchWarnings, ItemOutcome(ctx.ignore, ctx.shortName, rec, column, layouts[n].val))
      case Raised(_) => Failure(UncaughtException)
      case Skipped => Success(acc)
      case Emitted(key, o) => Success(Set(acc, StrKey(key), OptionValue(o)))
  }

  /** `json_decode($model->{$column})` and the `is_array` test: the layouts
      of a column, or none. The column value reaches `json_decode` as a
      string; one that cannot become a string escapes the `try`. */
  function ColumnLayouts(ctx: Context, rec: Record, column: string): Result<Option<seq<Entry>>, OptionsError> {
    match Interpolate(Column(rec, column))
    case Text(t) => if ctx.decode(t).Arr? then Success(Some(ctx.decode(t).entries)) else Success(None)
    case _ => Failure(UncaughtException)
  }

  function EmitColumns(ctx: Context, rec: Record, columns: seq<string>, options: seq<Entry>): Result<seq<Entry>, OptionsError>
    decreases |columns|
  {
    if |columns| == 0 then Success(options)
    else
      var n := |columns| - 1;
      var acc :- EmitColumns(ctx, rec, columns[..n], options);
      var found :- ColumnLayouts(ctx, rec, columns[n]);
      match found
      case None => Success(acc)
      case Some(layouts) => EmitLayouts(ctx, rec, columns[n], layouts, acc)
  }

  function EmitRecords(ctx: Context, records: seq<Record>, columns: seq<string>): Result<seq<Entry>, OptionsError>
    decreases |records|
  {
    if |records| == 0 then Success([])
    else
      var n := |records| - 1;
      var acc :- EmitRecords(ctx, records[..n], columns);
      EmitColumns(ctx, records[n], columns, acc)
  }

  /** `getDependedLayoutOptions()`, with the catch as written or as intended:
      `depended-layout` is always added to the ignored names, and each option
      key reads as the last emission for it across records, columns and
      layouts in order. */
  function BuildOptions(catchWarnings: bool, decode: string -> Value, records: seq<Record>, columns: seq<string>,
                        ignored: seq<string>, shortName: string): (r: Result<seq<Entry>, OptionsError>)
    ensures r.Success? ==> forall k ::
              Get(r.value, k) == Get(AllEmissions(Context(catchWarnings, decode, ignored + [DependedLayoutName], shortName), records, columns), k)
  {
    var ctx := Context(catchWarnings, decode, ignored + [DependedLayoutName], shortName);
    var r := EmitRecords(ctx, records, columns);
    if r.Failure? then r
    else
      assert forall k :: Get(r.value, k) == Get(AllEmissions(ctx, records, columns), k) by {
        forall k ensures Get(r.value, k) == Get(AllEmissions(ctx, records, columns), k) {
          OptionsReadEmissions(ctx, records, columns, k);
        }
      }
      r
  }

  // ---------------------------------------------------------------------------
  // The options as a list of emissions

  /** The option entry an outcome adds, if any. */
  function Emission(o: Outcome): seq<Entry> {
    match o
    case Emitted(key, opt) => [Entry(StrKey(key), OptionValue(opt))]
    case _ => []
  }

  /** Every option one column's layouts emit, in order. */
  function LayoutEmissions(ctx: Context, rec: Record, column: string, layouts: seq<Entry>): seq<Entry> {
    if |layouts| == 0 then []
    else
      var n := |layouts| - 1;
      LayoutEmissions(ctx, rec, column, layouts[..n]) + Emission(Caught(ctx.catchWarnings, ItemOutcome(ctx.ignore, ctx.shortName, rec, column, layouts[n].val)))
  }

  /** The emissions of one column, none when it holds no array. */
  function ColumnEmissions(ctx: Context, rec: Record, column: string): seq<Entry> {
    match ColumnLayouts(ctx, rec, column)
    case Success(Some(layouts)) => LayoutEmissions(ctx, rec, column, layouts)
    case _ => []
  }

  function RecordEmissions(ctx: Context, rec: Record, columns: seq<string>): seq<Entry> {
    if |columns| == 0 then []
    else
      var n := |columns| - 1;
      RecordEmissions(ctx, rec, columns[..n]) + ColumnEmissions(ctx, rec, columns[n])
  }

  function AllEmissions(ctx: Context, records: seq<Record>, columns: seq<string>): seq<Entry> {
    if |records| == 0 then []
    else
      var n := |records| - 1;
      AllEmissions(ctx, records[..n], columns) + RecordEmissions(ctx, records[n], columns)
  }

  lemma {:induction false} EmitLayoutsReadsEmissions(ctx: Context, rec: Record, column: string, layouts: seq<Entry>, options: seq<Entry>, k: Key)
    requires EmitLayouts(ctx, rec, column, layouts, options).Success?
    ensures Get(EmitLayouts(ctx, rec, column, layouts, options).value, k) == Get(options + LayoutEmissions(ctx, rec, column, layouts), k)
    decreases |layouts|
  {
    if |layouts| == 0 {
      assert options + [] == options;
    } else {
      var n := |layouts| - 1;
      EmitLayoutsReadsEmissions(ctx, rec, column, layouts[..n], options, k);
      var before := LayoutEmissions(ctx, rec, column, layouts[..n]);
      var o := Caught(ctx.catchWarnings, ItemOutcome(ctx.ignore, ctx.shortName, rec, column, layouts[n].val));
      assert options + LayoutEmissions(ctx, rec, column, layouts) == (options + before) + Emission(o);
      match o
      case Skipped =>
        assert (options + before) + [] == options + before;
      case Emitted(key, opt) =>
        GetAppend(options + before, Entry(StrKey(key), OptionValue(opt)), k);
    }
  }

  lemma {:induction false} EmitColumnsReadsEmissions(ctx: Context, rec: Record, columns: seq<string>, options: seq<Entry>, k: Key)
    requires EmitColumns(ctx, rec, columns, options).Success?
    ensures Get(EmitColumns(ctx, rec, columns, options).value, k) == Get(options + RecordEmissions(ctx, rec, columns), k)
    decreases |columns|
  {
    if |columns| == 0 {
      assert options + [] == options;
    } else {
      var n := |columns| - 1;
      EmitColumnsReadsEmissions(ctx, rec, columns[..n], options, k);
      var acc := EmitColumns(ctx, rec, columns[..n], options).value;
      var before := RecordEmissions(ctx, rec, columns[..n]);
      var here := ColumnEmissions(ctx, rec, columns[n]);
      assert RecordEmissions(ctx, rec, columns) == before + here;
      AppendAssoc(options, before, here);
      var found := ColumnLayouts(ctx, rec, columns[n]).value;
      if found.None? {
        assert EmitColumns(ctx, rec, columns, options) == Success(acc);
        assert ColumnEmissions(ctx, rec, columns[n]) == [];
        assert (options + before) + [] == options + before;
      } else {
        var layouts := found.value;
        var emitted := LayoutEmissions(ctx, rec, columns[n], layouts);
        assert EmitColumns(ctx, rec, columns, options) == EmitLayouts(ctx, rec, columns[n], layouts, acc);
        assert ColumnEmissions(ctx, rec, columns[n]) == emitted;
        EmitLayoutsReadsEmissions(ctx, rec, columns[n], layouts, acc, k);
        GetConcat(acc, emitted, k);
        GetConcat(options + before, emitted, k);
      }
    }
  }

  /** Reading the option list is reading the emissions: each key holds the
      option of the last layout that emitted it. */
  lemma {:induction false} OptionsReadEmissions(ctx: Context, records: seq<Record>, columns: seq<string>, k: Key)
    requires EmitRecords(ctx, records, columns).Success?
    ensures Get(EmitRecords(ctx, records, columns).value, k) == Get(AllEmissions(ctx, records, columns), k)
    decreases |records|
  {
    if |records| > 0 {
      var n := |records| - 1;
      OptionsReadEmissions(ctx, records[..n], columns, k);
      var acc := EmitRecords(ctx, records[..n], columns).value;
      EmitColumnsReadsEmissions(ctx, records[n], columns, acc, k);
      GetConcat(acc, RecordEmissions(ctx, records[n], columns), k);
      GetConcat(AllEmissions(ctx, records[..n], columns), RecordEmissions(ctx, records[n], columns), k);
    }
  }

  // ---------------------------------------------------------------------------
  // Which keys the option list holds

  /** The layout `layout` of `column` on `rec` emits an option under `s`. */
  predicate ItemEmits(ctx: Context, rec: Record, column: string, layout: Value, s: string) {
    var o := Caught(ctx.catchWarnings, ItemOutcome(ctx.ignore, ctx.shortName, rec, column, layout));
    o.Emitted? && o.key == s
  }

  /** Some layout of `column` on `rec` emits an option under `s`. */
  predicate ColumnEmits(ctx: Context, rec: Record, column: string, s: string) {
    match ColumnLayouts(ctx, rec, column)
    case Success(Some(layouts)) => exists i | 0 <= i < |layouts| :: ItemEmits(ctx, rec, column, layouts[i].val, s)
    case _ => false
  }

  /** The outcomes of one column's layouts, in order. */
  function Outcomes(ctx: Context, rec: Record, column: string, layouts: seq<Entry>): (os: seq<Outcome>)
    ensures |os| == |layouts|
    ensures forall i | 0 <= i < |layouts| ::
              os[i] == Caught(ctx.catchWarnings, ItemOutcome(ctx.ignore, ctx.shortName, rec, column, layouts[i].val))
  {
    seq(|layouts|, i requires 0 <= i < |layouts| =>
      Caught(ctx.catchWarnings, ItemOutcome(ctx.ignore, ctx.shortName, rec, column, layouts[i].val)))
  }

  /** The entries a list of outcomes adds, in order. */
  function Emissions(os: seq<Outcome>): seq<Entry> {
    if |os| == 0 then [] else Emissions(os[..|os| - 1]) + Emission(os[|os| - 1])
  }

  /** The emission parts of each column of one record. */
  function ColumnParts(ctx: Context, rec: Record, columns: seq<string>): (ps: seq<seq<Entry>>)
    ensures |ps| == |columns|
    ensures forall c | 0 <= c < |columns| :: ps[c] == ColumnEmissions(ctx, rec, columns[c])
  {
    seq(|columns|, c requires 0 <= c < |columns| => ColumnEmissions(ctx, rec, columns[c]))
  }

  /** The emission parts of each record. */
  function RecordParts(ctx: Context, records: seq<Record>, columns: seq<string>): (ps: seq<seq<Entry>>)
    ensures |ps| == |records|
    ensures forall r | 0 <= r < |records| :: ps[r] == RecordEmissions(ctx, records[r], columns)
  {
    seq(|records|, r requires 0 <= r < |records| => RecordEmissions(ctx, records[r], columns))
  }

  lemma {:induction false} LayoutEmissionsAreOutcomes(ctx: Context, rec: Record, column: string, layouts: seq<Entry>)
    ensures LayoutEmissions(ctx, rec, column, layouts) == Emissions(Outcomes(ctx, rec, column, layouts))
    decreases |layouts|
  {
    if |layouts| > 0 {
      var n := |layouts| - 1;
      LayoutEmissionsAreOutcomes(ctx, rec, column, layouts[..n]);
      assert Outcomes(ctx, rec, column, layouts)[..n] == Outcomes(ctx, rec, column, layouts[..n]);
    }
  }

  lemma {:induction false} RecordEmissionsFlatten(ctx: Context, rec: Record, columns: seq<string>)
    ensures RecordEmissions(ctx, rec, columns) == Flatten(ColumnParts(ctx, rec, columns))
    decreases |columns|
  {
    if |columns| > 0 {
      var n := |columns| - 1;
      RecordEmissionsFlatten(ctx, rec, columns[..n]);
      RecordEmissionsStep(ctx, rec, columns);
      ColumnPartsPrefix(ctx, rec, columns);
      FlattenStep(ColumnParts(ctx, rec, columns));
    }
  }

  lemma {:induction false} RecordEmissionsStep(ctx: Context, rec: Record, columns: seq<string>)
    requires |columns| > 0
    ensures RecordEmissions(ctx, rec, columns) ==
              RecordEmissions(ctx, rec, columns[..|columns| - 1]) + ColumnEmissions(ctx, rec, columns[|columns| - 1])
  {
  }

  lemma {:induction false} ColumnPartsPrefix(ctx: Context, rec: Record, columns: seq<string>)
    requires |columns| > 0
    ensures ColumnParts(ctx, rec, columns)[..|columns| - 1] == ColumnParts(ctx, rec, columns[..|columns| - 1])
    ensures ColumnParts(ctx, rec, columns)[|columns| - 1] == ColumnEmissions(ctx, rec, columns[|columns| - 1])
  {
    assert ColumnParts(ctx, rec, columns)[..|columns| - 1] == ColumnParts(ctx, rec, columns[..|columns| - 1]);
  }

  lemma {:induction false} AllEmissionsFlatten(ctx: Context, records: seq<Record>, columns: seq<string>)
    ensures AllEmissions(ctx, records, columns) == Flatten(RecordParts(ctx, records, columns))
    decreases |records|
  {
    if |records| > 0 {
      var n := |records| - 1;
      AllEmissionsFlatten(ctx, records[..n], columns);
      AllEmissionsStep(ctx, records, columns);
      RecordPartsPrefix(ctx, records, columns);
      FlattenStep(RecordParts(ctx, records, columns));
    }
  }

  lemma {:induction false} AllEmissionsStep(ctx: Context, records: seq<Record>, columns: seq<string>)
    requires |records| > 0
    ensures AllEmissions(ctx, records, columns) ==
              AllEmissions(ctx, records[..|records| - 1], columns) + RecordEmissions(ctx, records[|records| - 1], columns)
  {
  }

  lemma {:induction false} RecordPartsPrefix(ctx: Context, records: seq<Record>, columns: seq<string>)
    requires |records| > 0
    ensures RecordParts(ctx, records, columns)[..|records| - 1] == RecordParts(ctx, records[..|records| - 1], columns)
    ensures RecordParts(ctx, records, columns)[|records| - 1] == RecordEmissions(ctx, records[|records| - 1], columns)
  {
    assert RecordParts(ctx, records, columns)[..|records| - 1] == RecordParts(ctx, records[..|records| - 1], columns);
  }

  /** An outcome list emits a key exactly when one of its outcomes is an
      option under that key. */
  lemma {:induction false} EmissionsHas(os: seq<Outcome>, s: string)
    ensures Has(Emissions(os), StrKey(s)) <==> exists i | 0 <= i < |os| :: os[i].Emitted? && os[i].key == s
    decreases |os|
  {
    if |os| > 0 {
      var n := |os| - 1;
      var prefix := os[..n];
      EmissionsHas(prefix, s);
      GetConcat(Emissions(prefix), Emission(os[n]), StrKey(s));
      if Has(Emissions(prefix), StrKey(s)) {
        var i :| 0 <= i < n && prefix[i].Emitted? && prefix[i].key == s;
        assert prefix[i] == os[i];
      }
      if exists i | 0 <= i < |os| :: os[i].Emitted? && os[i].key == s {
        var i :| 0 <= i < |os| && os[i].Emitted? && os[i].key == s;
        if i < n {
          assert prefix[i] == os[i];
        }
      }
    }
  }

  lemma {:induction false} LayoutEmissionsHas(ctx: Context, rec: Record, column: string, layouts: seq<Entry>, s: string)
    ensures Has(LayoutEmissions(ctx, rec, column, layouts), StrKey(s)) <==>
            exists i | 0 <= i < |layouts| :: ItemEmits(ctx, rec, column, layouts[i].val, s)
  {
    var os := Outcomes(ctx, rec, column, layouts);
    LayoutEmissionsAreOutcomes(ctx, rec, column, layouts);
    EmissionsHas(os, s);
    if exists i | 0 <= i < |os| :: os[i].Emitted? && os[i].key == s {
      var i :| 0 <= i < |os| && os[i].Emitted? && os[i].key == s;
      assert ItemEmits(ctx, rec, column, layouts[i].val, s);
    }
    if exists i | 0 <= i < |layouts| :: ItemEmits(ctx, rec, column, layouts[i].val, s) {
      var i :| 0 <= i < |layouts| && ItemEmits(ctx, rec, column, layouts[i].val, s);
      assert os[i].Emitted? && os[i].key == s;
    }
  }

  lemma {:induction false} ColumnEmissionsHas(ctx: Context, rec: Record, column: string, s: string)
    ensures Has(ColumnEmissions(ctx, rec, column), StrKey(s)) <==> ColumnEmits(ctx, rec, column, s)
  {
    match ColumnLayouts(ctx, rec, column)
    case Success(Some(layouts)) =>
      LayoutEmissionsHas(ctx, rec, column, layouts, s);
    case _ =>
  }

  lemma {:induction false} RecordEmissionsHas(ctx: Context, rec: Record, columns: seq<string>, s: string)
    ensures Has(RecordEmissions(ctx, rec, columns), StrKey(s)) <==>
            exists c | 0 <= c < |columns| :: ColumnEmits(ctx, rec, columns[c], s)
  {
    var ps := ColumnParts(ctx, rec, columns);
    RecordEmissionsFlatten(ctx, rec, columns);
    HasFlatten(ps, StrKey(s));
    if exists c | 0 <= c < |ps| :: Has(ps[c], StrKey(s)) {
      var c :| 0 <= c < |ps| && Has(ps[c], StrKey(s));
      ColumnEmissionsHas(ctx, rec, columns[c], s);
    }
    if exists c | 0 <= c < |columns| :: ColumnEmits(ctx, rec, columns[c], s) {
      var c :| 0 <= c < |columns| && ColumnEmits(ctx, rec, columns[c], s);
      ColumnEmissionsHas(ctx, rec, columns[c], s);
      assert Has(ps[c], StrKey(s));
    }
  }

  lemma {:induction false} AllEmissionsHas(ctx: Context, records: seq<Record>, columns: seq<string>, s: string)
    ensures Has(AllEmissions(ctx, records, columns), StrKey(s)) <==>
            exists r, c | 0 <= r < |records| && 0 <= c < |columns| :: ColumnEmits(ctx, records[r], columns[c], s)
  {
    var ps := RecordParts(ctx, records, columns);
    AllEmissionsFlatten(ctx, records, columns);
    HasFlatten(ps, StrKey(s));
    if exists r | 0 <= r < |ps| :: Has(ps[r], StrKey(s)) {
      var r :| 0 <= r < |ps| && Has(ps[r], StrKey(s));
      RecordEmissionsHas(ctx, records[r], columns, s);
      var c :| 0 <= c < |columns| && ColumnEmits(ctx, records[r], columns[c], s);
    }
    if exists r, c | 0 <= r < |records| && 0 <= c < |columns| :: ColumnEmits(ctx, records[r], columns[c], s) {
      var r, c :| 0 <= r < |records| && 0 <= c < |columns| && ColumnEmits(ctx, records[r], columns[c], s);
      RecordEmissionsHas(ctx, records[r], columns, s);
      assert Has(ps[r], StrKey(s));
    }
  }

  /** The option list holds a key exactly when some stored layout of some
      record and column emits it: one option per emitting layout, layouts
      sharing a key sharing the option. */
  lemma {:induction false} OptionKeysAreEmittedKeys(ctx: Context, records: seq<Record>, columns: seq<string>, s: string)
    requires EmitRecords(ctx, records, columns).Success?
    ensures Has(EmitRecords(ctx, records, columns).value, StrKey(s)) <==>
            exists r, c | 0 <= r < |records| && 0 <= c < |columns| :: ColumnEmits(ctx, records[r], columns[c], s)
  {
    OptionsReadEmissions(ctx, records, columns, StrKey(s));
    AllEmissionsHas(ctx, records, columns, s);
  }

  // ---------------------------------------------------------------------------
  // The catch as written and as intended

  lemma {:induction false} EmitLayoutsAgree(ctx: Context, rec: Record, column: string, layouts: seq<Entry>, options: seq<Entry>)
    requires !ctx.catchWarnings && EmitLayouts(ctx, rec, column, layouts, options).Success?
    ensures EmitLayouts(ctx.(catchWarnings := true), rec, column, layouts, options) == EmitLayouts(ctx, rec, column, layouts, options)
    decreases |layouts|
  {
    if |layouts| > 0 {
      var n := |layouts| - 1;
      EmitLayoutsAgree(ctx, rec, column, layouts[..n], options);
      var o := ItemOutcome(ctx.ignore, ctx.shortName, rec, column, layouts[n].val);
      assert !o.Raised?;
    }
  }

  lemma {:induction false} EmitColumnsAgree(ctx: Context, rec: Record, columns: seq<string>, options: seq<Entry>)
    requires !ctx.catchWarnings && EmitColumns(ctx, rec, columns, options).Success?
    ensures EmitColumns(ctx.(catchWarnings := true), rec, columns, options) == EmitColumns(ctx, rec, columns, options)
    decreases |columns|
  {
    if |columns| > 0 {
      var n := |columns| - 1;
      EmitColumnsAgree(ctx, rec, columns[..n], options);
      var acc := EmitColumns(ctx, rec, columns[..n], options).value;
      var caught := ctx.(catchWarnings := true);
      assert ColumnLayouts(caught, rec, columns[n]) == ColumnLayouts(ctx, rec, columns[n]);
      match ColumnLayouts(ctx, rec, columns[n]).value
      case None =>
      case Some(layouts) =>
        EmitLayoutsAgree(ctx, rec, columns[n], layouts, acc);
    }
  }

  lemma {:induction false} EmitRecordsAgree(ctx: Context, records: seq<Record>, columns: seq<string>)
    requires !ctx.catchWarnings && EmitRecords(ctx, records, columns).Success?
    ensures EmitRecords(ctx.(catchWarnings := true), records, columns) == EmitRecords(ctx, records, columns)
    decreases |records|
  {
    if |records| > 0 {
      var n := |records| - 1;
      EmitRecordsAgree(ctx, records[..n], columns);
      EmitColumnsAgree(ctx, records[n], columns, EmitRecords(ctx, records[..n], columns).value);
    }
  }

  /** Where the builder as written succeeds, the intended one gives the same
      option list: repairing the catch changes only inputs that now abort. */
  lemma {:induction false} CorrectedAgreesWithAsWritten(decode: string -> Value, records: seq<Record>, columns: seq<string>,
                                     ignored: seq<string>, shortName: string)
    requires BuildOptions(false, decode, records, columns, ignored, shortName).Success?
    ensures BuildOptions(true, decode, records, columns, ignored, shortName) ==
            BuildOptions(false, decode, records, columns, ignored, shortName)
  {
    EmitRecordsAgree(Context(false, decode, ignored + [DependedLayoutName], shortName), records, columns);
  }

  /** With the catch in force, a layout whose handling raises a warning is
      skipped: the options are those of the layouts before it. */
  lemma {:induction false} WarningLayoutIsSkipped(ctx: Context, rec: Record, column: string, layouts: seq<Entry>, options: seq<Entry>, k: Key, bad: Value)
    requires ctx.catchWarnings && ItemOutcome(ctx.ignore, ctx.shortName, rec, column, bad) == Raised(true)
    ensures EmitLayouts(ctx, rec, column, layouts + [Entry(k, bad)], options) == EmitLayouts(ctx, rec, column, layouts, options)
  {
    assert (layouts + [Entry(k, bad)])[..|layouts|] == layouts;
  }

  /** As written, the same layout aborts the whole option list. */
  lemma {:induction false} WarningLayoutAborts(ctx: Context, rec: Record, column: string, layouts: seq<Entry>, options: seq<Entry>, k: Key, bad: Value)
    requires !ctx.catchWarnings && ItemOutcome(ctx.ignore, ctx.shortName, rec, column, bad) == Raised(true)
    ensures EmitLayouts(ctx, rec, column, layouts + [Entry(k, bad)], options) == Failure(UncaughtException)
  {
    assert (layouts + [Entry(k, bad)])[..|layouts|] == layouts;
    var before := EmitLayouts(ctx, rec, column, layouts, options);
    if before.Failure? {
      match before.error
      case UncaughtException =>
    }
  }

  lemma {:induction false} OneRecord(ctx: Context, rec: Record, columns: seq<string>)
    ensures EmitRecords(ctx, [rec], columns) == EmitColumns(ctx, rec, columns, [])
  {
    assert [rec][..0] == [];
  }

  lemma {:induction false} OneColumn(ctx: Context, rec: Record, column: string, layouts: seq<Entry>)
    requires ColumnLayouts(ctx, rec, column) == Success(Some(layouts))
    ensures EmitColumns(ctx, rec, [column], []) == EmitLayouts(ctx, rec, column, layouts, [])
  {
    assert [column][..0] == [];
  }

  /** A record whose `layout` column stores one layout without a key. */
  const KeylessRecord: Record := Record([Entry(StrKey("id"), Int(1)), Entry(StrKey("layout"), Str("[{\"layout\":\"hero\"}]"))])

  /** What `json_decode` makes of that column. */
  function KeylessDecode(t: string): Value {
    Arr([Entry(IntKey(0), Obj([Entry(StrKey("layout"), Str("hero"))]))])
  }

  lemma {:induction false} KeylessLayoutWarns(ignored: seq<string>, shortName: string)
    requires ignored == [DependedLayoutName]
    ensures ItemOutcome(ignored, shortName, KeylessRecord, "layout", Obj([Entry(StrKey("layout"), Str("hero"))])) == Raised(true)
  {
    var layout := Obj([Entry(StrKey("layout"), Str("hero"))]);
    assert Has(layout.props, StrKey("layout"));
    assert PropOf(layout, "layout") == Str("hero");
    assert !LooseEqualsText(Str("hero"), ignored[0]);
    assert Column(KeylessRecord, "id") == Int(1);
    assert !Has(layout.props, StrKey("key"));
    assert HasProp(layout, "layout") && !LooselyIn(PropOf(layout, "layout"), ignored);
    assert Interpolate(Column(KeylessRecord, "id")).Text? && !HasProp(layout, "key");
  }

  /** As written, one keyless layout makes the builder throw. */
  lemma {:induction false} KeylessLayoutAsWritten()
    ensures BuildOptions(false, KeylessDecode, [KeylessRecord], DefaultSelectColumns, DefaultIgnoredLayouts, "Page") ==
            Failure(UncaughtException)
  {
    var ctx := Context(false, KeylessDecode, DefaultIgnoredLayouts + [DependedLayoutName], "Page");
    assert DefaultIgnoredLayouts + [DependedLayoutName] == [DependedLayoutName];
    KeylessLayoutWarns(ctx.ignore, "Page");
    assert Column(KeylessRecord, "layout").Str?;
    var layouts := KeylessDecode("").entries;
    assert ColumnLayouts(ctx, KeylessRecord, "layout") == Success(Some(layouts));
    WarningLayoutAborts(ctx, KeylessRecord, "layout", [], [], IntKey(0), layouts[0].val);
    assert [] + [Entry(IntKey(0), layouts[0].val)] == layouts;
    assert EmitLayouts(ctx, KeylessRecord, "layout", layouts, []) == Failure(UncaughtException);
    OneColumn(ctx, KeylessRecord, "layout", layouts);
    OneRecord(ctx, KeylessRecord, DefaultSelectColumns);
  }

  /** With the catch in force, the keyless layout is left out and the
      option list is empty. */
  lemma {:induction false} KeylessLayoutCorrected()
    ensures BuildOptions(true, KeylessDecode, [KeylessRecord], DefaultSelectColumns, DefaultIgnoredLayouts, "Page") == Success([])
  {
    var ctx := Context(true, KeylessDecode, DefaultIgnoredLayouts + [DependedLayoutName], "Page");
    assert DefaultIgnoredLayouts + [DependedLayoutName] == [DependedLayoutName];
    KeylessLayoutWarns(ctx.ignore, "Page");
    assert Column(KeylessRecord, "layout").Str?;
    var layouts := KeylessDecode("").entries;
    assert ColumnLayouts(ctx, KeylessRecord, "layout") == Success(Some(layouts));
    WarningLayoutIsSkipped(ctx, KeylessRecord, "layout", [], [], IntKey(0), layouts[0].val);
    assert [] + [Entry(IntKey(0), layouts[0].val)] == layouts;
    assert EmitLayouts(ctx, KeylessRecord, "layout", layouts, []) == Success([]);
    OneColumn(ctx, KeylessRecord, "layout", layouts);
    OneRecord(ctx, KeylessRecord, DefaultSelectColumns);
  }

  // ---------------------------------------------------------------------------
  // What the options offer

  /** Placeholders are never offered: `depended-layout` is always on the
      ignore list, so a layout of that name is skipped. */
  lemma {:induction false} DependedLayoutsNeverOffered(ignored: seq<string>, shortName: string, rec: Record, column: string, layout: Value)
    requires HasProp(layout, "layout") && LooseEqualsText(PropOf(layout, "layout"), DependedLayoutName)
    ensures ItemOutcome(ignored + [DependedLayoutName], shortName, rec, column, layout) == Skipped
  {
    var ignore := ignored + [DependedLayoutName];
    assert LooseEqualsText(PropOf(layout, "layout"), ignore[|ignored|]);
  }

  /** An offered key parses back into the record id, the column and the
      layout key it was built from, when the id and the column cannot shift
      the split and the layout key holds no delimiter. */
  lemma {:induction false} EmittedKeyParses(ctx: Context, rec: Record, column: string, layout: Value, s: string, id: string, key: string)
    requires ItemEmits(ctx, rec, column, layout, s)
    requires Interpolate(Column(rec, "id")) == Text(id) && Interpolate(PropOf(layout, "key")) == Text(key)
    requires Separable(id) && Separable(column) && !Contains(key, Delimiter)
    ensures ParsePointer(s) == Success(Pointer(id, column, key))
  {
    CompositeKeyRoundTrip(id, column, key);
  }
}

=== FILE: php.dfy ===
/** The slice of PHP's value model the flexible-content core works on:
    scalars, ordered arrays, `stdClass` objects produced by `json_decode`,
    Illuminate collections, layout instances and zero-argument closures,
    together with the array operations, truthiness, loose comparison and
    string conversion rules the core relies on. */
module PhpValues {
  import opened Results

  /** An array key: PHP arrays are keyed by integers or strings. */
  datatype Key = IntKey(i: int) | StrKey(s: string)

  datatype Value =
    | Null
    | Bool(b: bool)
    | Int(i: int)
    | Str(s: string)
      /** An ordered PHP array. */
    | Arr(entries: seq<Entry>)
      /** A `stdClass` object, as `json_decode` builds for a JSON object. */
    | Obj(props: seq<Entry>)
      /** An Illuminate collection of items. */
    | Coll(items: seq<Entry>)
      /** A layout instance. */
    | Lay(layout: Layout)
      /** A zero-argument callable, represented by the value it returns. */
    | Closure(result: Value)

  datatype Entry = Entry(key: Key, val: Value)

  /** One occurrence of a layout in a flexible attribute. `cls` is the layout
      class the name resolved to; the title given to the constructor is always
      the name, so it is not stored separately. */
  datatype Layout = Layout(
    cls: Value,
    name: Value,
    key: Value,
    attributes: seq<Entry>,
    eagerLoad: seq<Entry>)

  /** An Eloquent record, reduced to its attribute bag. */
  datatype Record = Record(attributes: seq<Entry>)

  // ---------------------------------------------------------------------------
  // Array access

  /** `$a[$k]`: the value stored under `k`. When a sequence holds the key more
      than once the last entry is the one PHP would keep, so that one is read. */
  function Get(a: seq<Entry>, k: Key): Option<Value> {
    if |a| == 0 then None
    else if a[|a| - 1].key == k then Some(a[|a| - 1].val)
    else Get(a[..|a| - 1], k)
  }

  /** A read finds the last entry with the key, and finds nothing exactly
      when no entry has the key. */
  lemma {:induction false} GetLast(a: seq<Entry>, k: Key)
    ensures Get(a, k).Some? ==> exists i | 0 <= i < |a| :: a[i] == Entry(k, Get(a, k).value) && forall j | i < j < |a| :: a[j].key != k
    ensures Get(a, k).None? <==> forall i | 0 <= i < |a| :: a[i].key != k
    decreases |a|
  {
    if |a| > 0 && a[|a| - 1].key != k {
      var n := |a| - 1;
      GetLast(a[..n], k);
      assert forall i | 0 <= i < n :: a[..n][i] == a[i];
    }
  }

  /** `array_key_exists($k, $a)`. */
  predicate Has(a: seq<Entry>, k: Key) {
    Get(a, k).Some?
  }

  /** `$a[$k] ?? null`. */
  function GetOrNull(a: seq<Entry>, k: Key): Value {
    Get(a, k).GetOr(Null)
  }

  /** The array key a value stands for when used as an offset: strings and
      integers as they are, booleans as 0 or 1, `null` as the empty string;
      arrays and objects are not valid offsets. */
  function OffsetKey(v: Value): (r: Option<Key>)
    ensures r.None? <==> v.Arr? || v.Obj? || v.Coll? || v.Lay? || v.Closure?
    ensures v.Str? ==> r == Some(StrKey(v.s))
    ensures v.Int? ==> r == Some(IntKey(v.i))
    ensures v == Bool(true) ==> r == Some(IntKey(1))
    ensures v == Bool(false) ==> r == Some(IntKey(0))
    ensures v.Null? ==> r == Some(StrKey(""))
  {
    match v
    case Null => Some(StrKey(""))
    case Bool(b) => Some(IntKey(if b then 1 else 0))
    case Int(i) => Some(IntKey(i))
    case Str(s) => Some(StrKey(s))
    case _ => None
  }

  /** Replaces the value of every entry keyed `k`, keeping positions. */
  function Overwrite(a: seq<Entry>, k: Key, v: Value): (r: seq<Entry>)
    ensures |r| == |a|
  {
    if |a| == 0 then []
    else
      var last := a[|a| - 1];
      Overwrite(a[..|a| - 1], k, v) + [if last.key == k then Entry(k, v) else last]
  }

  lemma {:induction false} GetOverwrite(a: seq<Entry>, k: Key, v: Value, k': Key)
    ensures Get(Overwrite(a, k, v), k') == if k' != k then Get(a, k') else if Has(a, k) then Some(v) else None
    decreases |a|
  {
    if |a| > 0 {
      var n := |a| - 1;
      var r := Overwrite(a, k, v);
      assert r[..n] == Overwrite(a[..n], k, v);
      GetOverwrite(a[..n], k, v, k');
    }
  }

  lemma {:induction false} GetAppend(a: seq<Entry>, e: Entry, k: Key)
    ensures Get(a + [e], k) == if e.key == k then Some(e.val) else Get(a, k)
  {
    assert (a + [e])[..|a|] == a;
  }

  /** `$a[$k] = $v`: overwrites in place when the key exists, appends otherwise. */
  function Set(a: seq<Entry>, k: Key, v: Value): (r: seq<Entry>)
    ensures Get(r, k) == Some(v)
    ensures forall k' | k' != k :: Get(r, k') == Get(a, k')
  {
    if Has(a, k) then
      assert forall k' :: Get(Overwrite(a, k, v), k') == if k' != k then Get(a, k') else Some(v) by {
        forall k' { GetOverwrite(a, k, v, k'); }
      }
      Overwrite(a, k, v)
    else
      assert forall k' :: Get(a + [Entry(k, v)], k') == if k' == k then Some(v) else Get(a, k') by {
        forall k' { GetAppend(a, Entry(k, v), k'); }
      }
      a + [Entry(k, v)]
  }

  /** Reading a key from a concatenation: the right-hand part wins. */
  lemma {:induction false} GetConcat(a: seq<Entry>, b: seq<Entry>, k: Key)
    ensures Get(a + b, k) == if Has(b, k) then Get(b, k) else Get(a, k)
    decreases |b|
  {
    if |b| > 0 {
      var n := |b| - 1;
      assert (a + b)[..|a| + n] == a + b[..n];
      GetConcat(a, b[..n], k);
    } else {
      assert a + b == a;
    }
  }

  /** The entries of several arrays, one after another. */
  function Flatten(parts: seq<seq<Entry>>): seq<Entry> {
    if |parts| == 0 then []
    else Flatten(parts[..|parts| - 1]) + parts[|parts| - 1]
  }

  lemma {:induction false} FlattenStep(parts: seq<seq<Entry>>)
    requires |parts| > 0
    ensures Flatten(parts) == Flatten(parts[..|parts| - 1]) + parts[|parts| - 1]
  {
  }

  /** A key is in the concatenation of several arrays exactly when it is in
      one of them. */
  lemma {:induction false} HasFlatten(parts: seq<seq<Entry>>, k: Key)
    ensures Has(Flatten(parts), k) <==> exists i | 0 <= i < |parts| :: Has(parts[i], k)
    decreases |parts|
  {
    if |parts| > 0 {
      var n := |parts| - 1;
      var prefix := parts[..n];
      HasFlatten(prefix, k);
      GetConcat(Flatten(prefix), parts[n], k);
      if Has(Flatten(prefix), k) {
        var i :| 0 <= i < n && Has(prefix[i], k);
        assert prefix[i] == parts[i];
      }
      if exists i | 0 <= i < |parts| :: Has(parts[i], k) {
        var i :| 0 <= i < |parts| && Has(parts[i], k);
        if i < n {
          assert prefix[i] == parts[i];
        }
      }
    }
  }

  // ---------------------------------------------------------------------------
  // array_merge

  /** The number of integer-keyed entries. */
  function IntCount(a: seq<Entry>): nat {
    if |a| == 0 then 0
    else IntCount(a[..|a| - 1]) + (if a[|a| - 1].key.IntKey? then 1 else 0)
  }

  /** The key `$a[] = ...` would use: one past the largest integer key, or 0. */
  function NextIndex(a: seq<Entry>): int {
    if |a| == 0 then 0
    else
      var n := NextIndex(a[..|a| - 1]);
      var last := a[|a| - 1].key;
      if last.IntKey? && last.i + 1 > n then last.i + 1 else n
  }

  /** `array_merge` renumbers the integer keys of its arguments from 0 and
      leaves string keys alone. */
  function Renumber(a: seq<Entry>): (r: seq<Entry>)
    ensures |r| == |a|
  {
    if |a| == 0 then []
    else
      var n := |a| - 1;
      Renumber(a[..n]) + [if a[n].key.IntKey? then Entry(IntKey(IntCount(a[..n])), a[n].val) else a[n]]
  }

  lemma {:induction false} RenumberKeepsNames(a: seq<Entry>, s: string)
    ensures Get(Renumber(a), StrKey(s)) == Get(a, StrKey(s))
    decreases |a|
  {
    if |a| > 0 {
      var n := |a| - 1;
      var r := Renumber(a);
      assert r[..n] == Renumber(a[..n]);
      RenumberKeepsNames(a[..n], s);
    }
  }

  /** One step of `array_merge`: a string key overwrites, an integer key appends. */
  function Put(acc: seq<Entry>, e: Entry): seq<Entry> {
    if e.key.StrKey? then Set(acc, e.key, e.val)
    else acc + [Entry(IntKey(NextIndex(acc)), e.val)]
  }

  function MergeInto(acc: seq<Entry>, b: seq<Entry>): seq<Entry> {
    if |b| == 0 then acc
    else Put(MergeInto(acc, b[..|b| - 1]), b[|b| - 1])
  }

  /** `array_merge($a, $b)`. */
  function ArrayMerge(a: seq<Entry>, b: seq<Entry>): seq<Entry> {
    MergeInto(Renumber(a), b)
  }

  lemma {:induction false} MergeIntoOnNames(acc: seq<Entry>, b: seq<Entry>, s: string)
    ensures Get(MergeInto(acc, b), StrKey(s)) == if Has(b, StrKey(s)) then Get(b, StrKey(s)) else Get(acc, StrKey(s))
    decreases |b|
  {
    if |b| > 0 {
      var n := |b| - 1;
      MergeIntoOnNames(acc, b[..n], s);
      var m := MergeInto(acc, b[..n]);
      assert b == b[..n] + [b[n]];
      GetAppend(b[..n], b[n], StrKey(s));
      if !b[n].key.StrKey? {
        GetAppend(m, Entry(IntKey(NextIndex(m)), b[n].val), StrKey(s));
      }
    }
  }

  /** For every string key, `array_merge($a, $b)` holds `$b`'s value when `$b`
      has the key and `$a`'s otherwise: the later argument wins. */
  lemma {:induction false} ArrayMergeOnNames(a: seq<Entry>, b: seq<Entry>, s: string)
    ensures Get(ArrayMerge(a, b), StrKey(s)) == if Has(b, StrKey(s)) then Get(b, StrKey(s)) else Get(a, StrKey(s))
  {
    MergeIntoOnNames(Renumber(a), b, s);
    RenumberKeepsNames(a, s);
  }

  // ---------------------------------------------------------------------------
  // Truthiness, loose comparison, string conversion

  /** PHP's boolean conversion (`if ($v)`, `?:`, `!empty($v)`). */
  predicate Truthy(v: Value) {
    match v
    case Null => false
    case Bool(b) => b
    case Int(i) => i != 0
    case Str(s) => s != "" && s != "0"
    case Arr(e) => |e| > 0
    case _ => true
  }

  function DigitText(d: nat): string
    requires d < 10
  {
    [('0' as int + d) as char]
  }

  function NatText(n: nat): string
    decreases n
  {
    if n < 10 then DigitText(n) else NatText(n / 10) + DigitText(n % 10)
  }

  /** The canonical decimal text of an integer, as `(string) $i` gives it. */
  function DecimalText(n: int): string {
    if n < 0 then "-" + NatText(-n) else NatText(n)
  }

  /** The whitespace PHP allows around a numeric string: space, `\t`, `\n`,
      `\v`, `\f` and `\r`. */
  predicate IsSpace(c: char) {
    c == ' ' || 9 <= c as int <= 13
  }

  predicate IsDigit(c: char) {
    '0' <= c <= '9'
  }

  predicate AllDigits(d: string) {
    forall i | 0 <= i < |d| :: IsDigit(d[i])
  }

  /** The value of a run of decimal digits. */
  function DigitsValue(d: string): nat
    requires AllDigits(d)
  {
    if |d| == 0 then 0
    else DigitsValue(d[..|d| - 1]) * 10 + (d[|d| - 1] as int - '0' as int)
  }

  function TrimLeft(s: string): string {
    if |s| > 0 && IsSpace(s[0]) then TrimLeft(s[1..]) else s
  }

  function TrimRight(s: string): string {
    if |s| > 0 && IsSpace(s[|s| - 1]) then TrimRight(s[..|s| - 1]) else s
  }

  /** The value of an integer numeric string: optional surrounding
      whitespace, an optional sign and at least one digit. */
  function IntegerText(s: string): Option<int> {
    var t := TrimRight(TrimLeft(s));
    var signed := |t| > 0 && (t[0] == '-' || t[0] == '+');
    var digits := if signed then t[1..] else t;
    if |digits| > 0 && AllDigits(digits) then
      var n: int := DigitsValue(digits);
      Some(if signed && t[0] == '-' then -n else n)
    else None
  }

  lemma {:induction false} NatTextDigits(n: nat)
    ensures |NatText(n)| > 0 && AllDigits(NatText(n)) && DigitsValue(NatText(n)) == n
    decreases n
  {
    if n >= 10 {
      NatTextDigits(n / 10);
      var a := NatText(n / 10);
      var t := a + DigitText(n % 10);
      assert t[..|a|] == a;
    }
  }

  /** The decimal text of an integer reads back as that integer. */
  lemma {:induction false} DecimalTextParses(n: int)
    ensures IntegerText(DecimalText(n)) == Some(n)
  {
    var t := DecimalText(n);
    var m := if n < 0 then -n else n;
    NatTextDigits(m);
    assert TrimLeft(t) == t;
    assert TrimRight(t) == t;
    if n < 0 {
      assert t[1..] == NatText(m);
    }
  }

  /** Text that starts with neither whitespace, a sign nor a digit is not
      numeric. */
  lemma {:induction false} WordIsNotNumeric(s: string)
    requires |s| > 0 && !IsSpace(s[0]) && !IsDigit(s[0]) && s[0] != '-' && s[0] != '+'
    ensures IntegerText(s).None?
  {
    assert TrimLeft(s) == s;
    TrimRightPrefix(s);
    assert TrimRight(s)[0] == s[0];
  }

  lemma {:induction false} TrimRightPrefix(s: string)
    ensures |TrimRight(s)| <= |s| && TrimRight(s) == s[..|TrimRight(s)|]
    ensures |s| > 0 && !IsSpace(s[0]) ==> |TrimRight(s)| > 0
    decreases |s|
  {
    if |s| > 0 && IsSpace(s[|s| - 1]) {
      TrimRightPrefix(s[..|s| - 1]);
    }
  }

  /** `$v == $s` for a string `$s` under PHP 8's loose comparison. Two
      integer numeric strings, or an integer and an integer numeric string,
      compare as numbers (`"01" == "1"`, `5 == " 5"`); other strings compare
      exactly. `null` equals only the empty string, a boolean compares with
      the truthiness of the string, and arrays and objects never equal a
      string. */
  predicate LooseEqualsText(v: Value, s: string) {
    match v
    case Str(t) =>
      if IntegerText(t).Some? && IntegerText(s).Some? then IntegerText(t) == IntegerText(s) else t == s
    case Null => s == ""
    case Bool(b) => b == Truthy(Str(s))
    case Int(i) => if IntegerText(s).Some? then IntegerText(s) == Some(i) else s == DecimalText(i)
    case _ => false
  }

  /** A string loosely equals itself, and an integer its decimal text. */
  lemma {:induction false} LooseEqualsReflexive(s: string, i: int)
    ensures LooseEqualsText(Str(s), s) && LooseEqualsText(Int(i), DecimalText(i))
  {
    DecimalTextParses(i);
  }

  /** `in_array($v, $list)` with loose comparison. */
  predicate LooselyIn(v: Value, list: seq<string>) {
    exists i | 0 <= i < |list| :: LooseEqualsText(v, list[i])
  }

  /** The outcome of turning a value into a string. */
  datatype Conversion =
    | Text(s: string)
      /** A PHP warning: the framework turns it into an `ErrorException`. */
    | Warning
      /** An `Error` or `TypeError`. */
    | Fatal

  /** String interpolation `"{$v}"`: an array becomes `"Array"` with a
      warning, an object without `__toString` is an `Error`. */
  function Interpolate(v: Value): (r: Conversion)
    ensures r.Text? ==> LooseEqualsText(v, r.s)
    ensures v.Int? ==> r == Text(DecimalText(v.i)) && IntegerText(r.s) == Some(v.i)
    ensures v.Str? ==> r == Text(v.s)
    ensures v.Null? ==> r == Text("")
    ensures v.Bool? ==> r == Text(if v.b then "1" else "")
    ensures v.Arr? ==> r == Warning
    ensures !(v.Null? || v.Bool? || v.Int? || v.Str? || v.Arr?) ==> r == Fatal
  {
    match v
    case Null => Text("")
    case Bool(b) => Text(if b then "1" else "")
    case Int(i) => DecimalTextParses(i); Text(DecimalText(i))
    case Str(s) => Text(s)
    case Arr(_) => Warning
    case _ => Fatal
  }

  /** Returning `$v` from a function declared `: string` without strict
      types: scalars are converted, anything else is a `TypeError`. */
  function ReturnedText(v: Value): (r: Conversion)
    ensures r.Text? <==> v.Str? || v.Int? || v.Bool?
    ensures r.Text? ==> LooseEqualsText(v, r.s)
    ensures v.Int? ==> r == Text(DecimalText(v.i)) && IntegerText(r.s) == Some(v.i)
    ensures v.Str? ==> r == Text(v.s)
    ensures v.Bool? ==> r == Text(if v.b then "1" else "")
    ensures !r.Text? ==> r.Fatal?
  {
    match v
    case Bool(b) => Text(if b then "1" else "")
    case Int(i) => DecimalTextParses(i); Text(DecimalText(i))
    case Str(s) => Text(s)
    case _ => Fatal
  }

  /** `(array) $v`. Objects other than `stdClass` are not taken apart. */
  function ToArray(v: Value): seq<Entry> {
    match v
    case Null => []
    case Arr(e) => e
    case Obj(p) => p
    case Coll(e) => e
    case Lay(_) => []
    case Closure(_) => []
    case _ => [Entry(IntKey(0), v)]
  }

  // ---------------------------------------------------------------------------
  // Objects and records

  /** `$v->name ?? null`, also what `isset($v->name)` inspects: reading a
      property of a non-object gives `null` here. */
  function PropOf(v: Value, name: string): Value {
    if v.Obj? then GetOrNull(v.props, StrKey(name)) else Null
  }

  /** Whether `$v->name` can be read without a warning. */
  predicate HasProp(v: Value, name: string) {
    v.Obj? && Has(v.props, StrKey(name))
  }

  /** `$record->{$column}`: a missing attribute reads as `null`. */
  function Column(r: Record, column: string): Value {
    GetOrNull(r.attributes, StrKey(column))
  }

  /** `Model::find($id)`: the first record whose primary key equals `id`. */
  function Find(records: seq<Record>, id: string): (r: Option<Record>)
    ensures r.Some? ==> r.value in records && LooseEqualsText(Column(r.value, "id"), id)
    ensures r.None? ==> forall i | 0 <= i < |records| :: !LooseEqualsText(Column(records[i], "id"), id)
  {
    if |records| == 0 then None
    else if LooseEqualsText(Column(records[0], "id"), id) then Some(records[0])
    else Find(records[1..], id)
  }
}

=== FILE: pointer.dfy ===
/** Depended-layout pointers: the composite key `{id}___{column}___{key}`
    that names one layout occurrence on another record, how the option
    builder writes it and how the resolver takes it apart
    (src/Concerns/HasFlexible.php, lines 106 and 325). */
module Pointers {
  import opened Results
  import opened Strings
  import opened Sequences

  const Delimiter: string := "___"

  /** The layout name that marks a placeholder for a layout of another record. */
  const DependedLayoutName: string := "depended-layout"

  datatype Pointer = Pointer(id: string, column: string, key: string)

  /** `explode` gave fewer than three pieces, so destructuring into
      `[$model_id, $column, $layout_key]` reads a missing index: a warning
      the framework turns into an exception. */
  datatype PointerError = MalformedPointer

  /** The key the option builder writes for a layout occurrence. */
  function CompositeKey(id: string, column: string, key: string): string {
    id + Delimiter + column + Delimiter + key
  }

  /** `[$id, $column, $key] = explode('___', $s)`: the first three pieces;
      any further pieces are ignored. */
  function ParsePointer(s: string): (r: Result<Pointer, PointerError>)
    ensures r.Failure? <==> |Explode(s, Delimiter)| < 3
    ensures r.Success? ==> r.value == Pointer(Explode(s, Delimiter)[0], Explode(s, Delimiter)[1], Explode(s, Delimiter)[2])
    ensures r.Success? ==> !Contains(r.value.id, Delimiter) && !Contains(r.value.column, Delimiter) && !Contains(r.value.key, Delimiter)
    ensures r.Success? ==> StartsWith(s, CompositeKey(r.value.id, r.value.column, r.value.key))
  {
    var parts := Explode(s, Delimiter);
    if |parts| < 3 then Failure(MalformedPointer)
    else
      ExplodePartsAreFree(s, Delimiter);
      ImplodeExplode(s, Delimiter);
      ImplodePrefix(parts);
      Success(Pointer(parts[0], parts[1], parts[2]))
  }

  lemma {:induction false} ImplodeStartsWithFirst(parts: seq<string>)
    requires |parts| >= 1
    ensures StartsWith(Implode(parts, Delimiter), parts[0])
  {
    if |parts| > 1 {
      var t := Delimiter + Implode(parts[1..], Delimiter);
      assert Implode(parts, Delimiter) == parts[0] + t;
      assert (parts[0] + t)[..|parts[0]|] == parts[0];
    }
  }

  lemma {:induction false} ImplodeTwo(parts: seq<string>)
    requires |parts| >= 3
    ensures Implode(parts, Delimiter) == parts[0] + Delimiter + parts[1] + Delimiter + Implode(parts[2..], Delimiter)
  {
    assert parts[1..][1..] == parts[2..];
    assert Implode(parts[1..], Delimiter) == parts[1] + Delimiter + Implode(parts[2..], Delimiter);
  }

  /** The first three pieces, joined, are a prefix of the joined whole. */
  lemma {:induction false} ImplodePrefix(parts: seq<string>)
    requires |parts| >= 3
    ensures StartsWith(Implode(parts, Delimiter), CompositeKey(parts[0], parts[1], parts[2]))
  {
    var i2 := Implode(parts[2..], Delimiter);
    ImplodeStartsWithFirst(parts[2..]);
    var tail := i2[|parts[2]|..];
    assert i2 == parts[2] + tail;
    ImplodeTwo(parts);
    var pre := parts[0] + Delimiter + parts[1] + Delimiter;
    var key := CompositeKey(parts[0], parts[1], parts[2]);
    var whole := Implode(parts, Delimiter);
    assert whole == pre + (parts[2] + tail);
    AppendAssoc(pre, parts[2], tail);
    assert key == pre + parts[2];
    assert whole == key + tail;
    assert whole[..|key|] == key;
  }

  /** A component that can stand left of a delimiter without moving the
      split: it holds no `___` and does not end in `_` (otherwise its final
      underscores and the delimiter's would form an earlier `___`). */
  predicate Separable(a: string) {
    !Contains(a, Delimiter) && (|a| == 0 || a[|a| - 1] != '_')
  }

  lemma {:induction false} SeparableSplitsFirst(a: string, rest: string)
    requires Separable(a)
    ensures forall j: nat | j < |a| :: !OccursAt(a + Delimiter + rest, Delimiter, j)
  {
    var t := a + Delimiter + rest;
    forall j: nat | j < |a|
      ensures !OccursAt(t, Delimiter, j)
    {
      if j + 3 <= |a| {
        assert t[j..j + 3] == a[j..j + 3];
        assert !OccursAt(a, Delimiter, j);
      } else if j + 3 <= |t| {
        assert t[|a| - 1] == a[|a| - 1] != '_';
        assert t[j..j + 3][|a| - 1 - j] == t[|a| - 1];
      }
    }
  }

  lemma {:induction false} ExplodeAfterSeparable(a: string, rest: string)
    requires Separable(a)
    ensures Explode(a + Delimiter + rest, Delimiter) == [a] + Explode(rest, Delimiter)
  {
    SeparableSplitsFirst(a, rest);
    ExplodeFirst(a, Delimiter, rest);
  }

  lemma {:induction false} ExplodeCompositeKey(id: string, column: string, key: string)
    requires Separable(id) && Separable(column)
    ensures Explode(CompositeKey(id, column, key), Delimiter) == [id, column] + Explode(key, Delimiter)
  {
    var rest := column + Delimiter + key;
    var tail := Explode(key, Delimiter);
    var s := CompositeKey(id, column, key);
    assert s == id + Delimiter + rest;
    calc {
      Explode(s, Delimiter);
      Explode(id + Delimiter + rest, Delimiter);
      { ExplodeAfterSeparable(id, rest); }
      [id] + Explode(rest, Delimiter);
      { ExplodeAfterSeparable(column, key); }
      [id] + ([column] + tail);
      [id, column] + tail;
    }
  }

  /** Parsing a composite key gives back its id and column, and the part of
      the layout key before the key's own first `___`. */
  lemma {:induction false} ParseCompositeKey(id: string, column: string, key: string)
    requires Separable(id) && Separable(column)
    ensures ParsePointer(CompositeKey(id, column, key)) == Success(Pointer(id, column, Explode(key, Delimiter)[0]))
  {
    ExplodeCompositeKey(id, column, key);
  }

  /** The composite-key round trip: a key built from separable components
      parses back to the same triple. */
  lemma {:induction false} CompositeKeyRoundTrip(id: string, column: string, key: string)
    requires Separable(id) && Separable(column) && !Contains(key, Delimiter)
    ensures ParsePointer(CompositeKey(id, column, key)) == Success(Pointer(id, column, key))
  {
    ParseCompositeKey(id, column, key);
    ExplodeFree(key, Delimiter);
  }

  /** A pointer with a single delimiter is malformed. */
  lemma {:induction false} OneDelimiterIsMalformed(id: string, column: string)
    requires Separable(id) && !Contains(column, Delimiter)
    ensures ParsePointer(id + Delimiter + column) == Failure(MalformedPointer)
  {
    ExplodeAfterSeparable(id, column);
    ExplodeFree(column, Delimiter);
  }

  /** An id ending in `_` does not round-trip: the split moves left. */
  lemma {:induction false} TrailingUnderscoreShiftsSplit()
    ensures ParsePointer(CompositeKey("7_", "body", "k")) == Success(Pointer("7", "_body", "k"))
  {
    assert CompositeKey("7_", "body", "k") == CompositeKey("7", "_body", "k");
    assert Separable("_body") by {
      forall j: nat | j <= 5
        ensures !OccursAt("_body", Delimiter, j)
      {
        if j + 3 <= 5 {
          assert "_body"[j..j + 3][1] == "_body"[j + 1] != '_';
        }
      }
    }
    assert Separable("7") by {
      forall j: nat | j <= 1
        ensures !OccursAt("7", Delimiter, j)
      {
      }
    }
    assert !Contains("k", Delimiter) by {
      forall j: nat | j <= 1
        ensures !OccursAt("k", Delimiter, j)
      {
      }
    }
    ParseCompositeKey("7", "_body", "k");
    ExplodeFree("k", Delimiter);
  }
}

=== FILE: registry.dfy ===
/** The layout registry of src/Flex.php: which layout class each layout name
    resolves to, read from static configuration (direct entries and
    callables), or found by scanning the layouts folder, optionally topped up
    with the built-in default layouts.

    The configuration is the `flexible` config array; the folder scan, the
    class-loading of each file and the constructor's outcome are given by a
    `Discovery` value; the per-instance memo of discovered layouts is the
    `Flex` state threaded through every call. */
module Registry {
  import opened Results
  import opened PhpValues
  import opened Strings

  const WysiwygLayoutClass: string := "Marshmallow\\Nova\\Flexible\\Layouts\\Defaults\\WysiwygLayout"

  /** The built-in layouts, `$default_layouts`. */
  const DefaultLayouts: seq<Entry> := [Entry(StrKey("wysiwyg"), Str(WysiwygLayoutClass))]

  /** What instantiating the class a discovered file resolves to gives:
      not a layout (the constructor raised a `TypeError` or `Error`), or a
      layout with its `name()`, its class and whether it reports
      `shouldNotBeAutoLoaded()`. A plain `Exception`, which the scan does not
      catch, is not among the outcomes. */
  datatype Candidate = NotALayout | Discovered(name: string, cls: string, excluded: bool)

  /** The environment of a folder scan: the application path, whether the
      layouts folder exists, every path the recursive directory iterator
      yields, in order, and the result of instantiating a class by name. */
  datatype Discovery = Discovery(
    appPath: string,
    folderExists: bool,
    files: seq<string>,
    construct: string -> Candidate)

  /** The registry instance's memo, `$loaded_layouts`; empty means unset. */
  datatype Flex = Flex(loaded: seq<Entry>)

  /** The layouts a call returned and the registry state after it. */
  datatype Resolved = Resolved(layouts: seq<Entry>, state: Flex)

  datatype RegistryError =
      /** "Your layout callable should return an array" */
    | CallableMustReturnArray
      /** `foreach` over a configured value that is a scalar: a warning the
          framework turns into an exception. */
    | LayoutsNotIterable

  /** `autoDiscoveryIsActive()`: the key is present and its value is
      identical to `true`; a truthy `1` or `"true"` does not switch it on. */
  predicate AutoDiscoveryIsActive(cfg: seq<Entry>): (r: bool)
    ensures r <==> Get(cfg, StrKey("auto-discovery")) == Some(Bool(true))
  {
    Has(cfg, StrKey("auto-discovery")) && GetOrNull(cfg, StrKey("auto-discovery")) == Bool(true)
  }

  /** `loadDefaultLayouts()`: `merge_layouts` is identical to `true`; a
      missing key reads as `null`. */
  predicate LoadDefaultLayouts(cfg: seq<Entry>): (r: bool)
    ensures r <==> Get(cfg, StrKey("merge_layouts")) == Some(Bool(true))
  {
    GetOrNull(cfg, StrKey("merge_layouts")) == Bool(true)
  }

  /** The class a layout file is expected to declare: the path with every
      `.php` and every occurrence of the application path removed, prefixed
      with `\App`, and with `/` turned into `\`. */
  function ResolveFilePathToClass(path: string, appPath: string): (r: string)
    ensures StartsWith(r, "\\App") && '/' !in r
  {
    var stripped := RemoveAll(RemoveAll(path, ".php"), appPath);
    var r := ReplaceChar("\\App" + stripped, '/', '\\');
    assert r[..4] == "\\App" by {
      forall i | 0 <= i < 4 ensures r[i] == "\\App"[i] {
        assert ("\\App" + stripped)[i] == "\\App"[i];
      }
    }
    r
  }

  /** The layouts folder, `app_path('Flexible')`, with its separator. */
  const FolderPrefix: string := "/Flexible/"

  /** A file `{app}/Flexible/{rel}.php` resolves to the class
      `\App\Flexible\{rel}` with every `/` of `rel` turned into `\`, as
      long as neither `.php` nor the application path occurs anywhere else. */
  lemma {:induction false} FolderFileClass(appPath: string, rel: string)
    requires !Contains(appPath + FolderPrefix + rel, ".php")
    requires |appPath| == 0 || !Contains(FolderPrefix + rel, appPath)
    ensures ResolveFilePathToClass(appPath + FolderPrefix + rel + ".php", appPath) ==
            "\\App\\Flexible\\" + ReplaceChar(rel, '/', '\\')
  {
    var p := appPath + FolderPrefix + rel;
    RemoveTrailing(p, ".php");
    assert RemoveAll(p + ".php", ".php") == p;
    if |appPath| > 0 {
      RemoveLeading(appPath, FolderPrefix + rel);
      assert p == appPath + (FolderPrefix + rel);
    }
    assert RemoveAll(p, appPath) == FolderPrefix + rel;
    FolderSeparators(rel);
  }

  /** Prefixing `\App` to the folder-relative path and turning `/` into `\`. */
  lemma {:induction false} FolderSeparators(rel: string)
    ensures ReplaceChar("\\App" + (FolderPrefix + rel), '/', '\\') == "\\App\\Flexible\\" + ReplaceChar(rel, '/', '\\')
  {
    var t := "\\App" + (FolderPrefix + rel);
    var r := ReplaceChar(t, '/', '\\');
    var e := "\\App\\Flexible\\" + ReplaceChar(rel, '/', '\\');
    assert |r| == |e|;
    forall i | 0 <= i < |r| ensures r[i] == e[i] {
      if i >= 14 {
        assert t[i] == rel[i - 14];
      }
    }
  }

  /** Removing a pattern that occurs only as the suffix `pat` of `p + pat`. */
  lemma {:induction false} RemoveTrailing(p: string, pat: string)
    requires pat == ".php" && !Contains(p, pat)
    ensures RemoveAll(p + pat, pat) == p
  {
    var s := p + pat;
    assert OccursAt(s, pat, |p|) by {
      assert s[|p|..|p| + 4] == pat;
    }
    forall j: nat | j < |p|
      ensures !OccursAt(s, pat, j)
    {
      if j + 4 <= |p| {
        assert s[j..j + 4] == p[j..j + 4];
        assert !OccursAt(p, pat, j);
      } else {
        assert s[j..j + 4][|p| - j] == s[|p|] == '.';
      }
    }
    var i := FindFrom(s, pat, 0).value;
    assert i == |p|;
    assert s[..i] == p;
    assert s[i + 4..] == [];
    assert RemoveEach([], pat) == [];
  }

  /** Removing a pattern that occurs only as the prefix `pat` of `pat + rest`. */
  lemma {:induction false} RemoveLeading(pat: string, rest: string)
    requires |pat| > 0 && !Contains(rest, pat)
    ensures RemoveAll(pat + rest, pat) == rest
  {
    var s := pat + rest;
    assert OccursAt(s, pat, 0) by {
      assert s[..|pat|] == pat;
    }
    assert s[|pat|..] == rest;
    assert FindFrom(s, pat, 0) == Some(0);
    RemoveCut(s, pat, 0);
    assert forall i: nat | i <= |rest| :: !OccursAt(rest, pat, i);
  }

  /** The layout a scanned file contributes, as a name and a class: only a
      `.php` file whose class constructs as a layout that does not exclude
      itself contributes. */
  function Accept(d: Discovery, file: string): (r: Option<Entry>)
    ensures r.Some? ==> EndsWith(file, ".php")
    ensures r.Some? ==> && r.value.key.StrKey? && r.value.val.Str?
                        && d.construct(ResolveFilePathToClass(file, d.appPath)) == Discovered(r.value.key.s, r.value.val.s, false)
    ensures EndsWith(file, ".php") ==>
              (r.None? <==> (d.construct(ResolveFilePathToClass(file, d.appPath)).NotALayout? ||
                            d.construct(ResolveFilePathToClass(file, d.appPath)).excluded))
  {
    ExtensionPhpIffSuffix(file);
    if Extension(file) != "php" then None
    else
      match d.construct(ResolveFilePathToClass(file, d.appPath))
      case NotALayout => None
      case Discovered(name, cls, excluded) =>
        if excluded then None else Some(Entry(StrKey(name), Str(cls)))
  }

  /** The scan loop: `$layouts[$layout->name()] = get_class($layout)` for
      every accepted file, in iteration order. */
  function Discover(d: Discovery, files: seq<string>): seq<Entry> {
    if |files| == 0 then []
    else
      var acc := Discover(d, files[..|files| - 1]);
      match Accept(d, files[|files| - 1])
      case None => acc
      case Some(e) => Set(acc, e.key, e.val)
  }

  /** What each scanned file contributes. */
  function Accepts(d: Discovery, files: seq<string>): (os: seq<Option<Entry>>)
    ensures |os| == |files|
    ensures forall j | 0 <= j < |files| :: os[j] == Accept(d, files[j])
  {
    seq(|files|, j requires 0 <= j < |files| => Accept(d, files[j]))
  }

  /** The contributions of the accepted files, in order. */
  function Accepted(d: Discovery, files: seq<string>): seq<Entry> {
    Somes(Accepts(d, files))
  }

  lemma {:induction false} AcceptedStep(d: Discovery, files: seq<string>)
    requires |files| > 0
    ensures Accepted(d, files) == Accepted(d, files[..|files| - 1]) + Listed(Accept(d, files[|files| - 1]))
  {
    assert Accepts(d, files)[..|files| - 1] == Accepts(d, files[..|files| - 1]);
  }

  /** Every accepted contribution comes from some scanned file. */
  lemma {:induction false} AcceptedFromFiles(d: Discovery, files: seq<string>, e: Entry)
    requires e in Accepted(d, files)
    ensures exists j | 0 <= j < |files| :: Accept(d, files[j]) == Some(e)
  {
    var os := Accepts(d, files);
    SomesFrom(os, e);
    var j :| 0 <= j < |os| && os[j] == Some(e);
    assert Accept(d, files[j]) == Some(e);
  }

  /** Every accepted file's contribution is among the accepted ones. */
  lemma {:induction false} AcceptedContains(d: Discovery, files: seq<string>, j: nat, e: Entry)
    requires j < |files| && Accept(d, files[j]) == Some(e)
    ensures e in Accepted(d, files)
  {
    SomesContains(Accepts(d, files), j);
  }

  /** Scanning keeps, for each name, the class of the last accepted file with
      that name: reading the scan result is reading the list of accepted
      contributions. */
  lemma {:induction false} DiscoverReadsAccepted(d: Discovery, files: seq<string>, k: Key)
    ensures Get(Discover(d, files), k) == Get(Accepted(d, files), k)
    decreases |files|
  {
    if |files| > 0 {
      var n := |files| - 1;
      DiscoverReadsAccepted(d, files[..n], k);
      AcceptedStep(d, files);
      var acc := Discover(d, files[..n]);
      var before := Accepted(d, files[..n]);
      match Accept(d, files[n])
      case None =>
        assert Discover(d, files) == acc;
        assert Accepted(d, files) == before + [];
        assert before + [] == before;
      case Some(e) =>
        assert Discover(d, files) == Set(acc, e.key, e.val);
        assert Accepted(d, files) == before + [e];
        GetAppend(before, e, k);
    }
  }

  /** Every accepted file's layout is in the scan result under its name, and
      every name in the scan result comes from an accepted `.php` file. */
  lemma {:induction false} DiscoveredNames(d: Discovery, files: seq<string>, name: string)
    ensures Has(Discover(d, files), StrKey(name)) <==>
            exists j | 0 <= j < |files| :: EndsWith(files[j], ".php") && Accept(d, files[j]).Some? && Accept(d, files[j]).value.key == StrKey(name)
  {
    DiscoverReadsAccepted(d, files, StrKey(name));
    var acc := Accepted(d, files);
    GetLast(acc, StrKey(name));
    if Has(Discover(d, files), StrKey(name)) {
      var i :| 0 <= i < |acc| && acc[i].key == StrKey(name);
      AcceptedFromFiles(d, files, acc[i]);
      var j :| 0 <= j < |files| && Accept(d, files[j]) == Some(acc[i]);
      ExtensionPhpIffSuffix(files[j]);
    }
    if exists j | 0 <= j < |files| :: EndsWith(files[j], ".php") && Accept(d, files[j]).Some? && Accept(d, files[j]).value.key == StrKey(name) {
      var j :| 0 <= j < |files| && EndsWith(files[j], ".php") && Accept(d, files[j]).Some? && Accept(d, files[j]).value.key == StrKey(name);
      AcceptedContains(d, files, j, Accept(d, files[j]).value);
    }
  }

  /** `autoDiscoverLayouts()`: a non-empty memo is returned as is; otherwise
      the folder is scanned, the defaults are merged in when configured, and
      the result becomes the memo. */
  function AutoDiscoverLayouts(cfg: seq<Entry>, flex: Flex, d: Discovery): (r: Resolved)
    ensures |flex.loaded| > 0 ==> r == Resolved(flex.loaded, flex)
    ensures |flex.loaded| == 0 ==> r.state == Flex(r.layouts)
    ensures |flex.loaded| == 0 && !d.folderExists && !LoadDefaultLayouts(cfg) ==> r.layouts == []
  {
    if |flex.loaded| > 0 then Resolved(flex.loaded, flex)
    else
      var found := if d.folderExists then Discover(d, d.files) else [];
      var layouts := if LoadDefaultLayouts(cfg) then ArrayMerge(found, DefaultLayouts) else found;
      Resolved(layouts, Flex(layouts))
  }

  /** What `foreach` walks over for a configured value. */
  /** What `foreach` walks over for a configured value: an array its
      entries, a `stdClass` its properties, a collection its items, and a
      closure, an object without properties, nothing at all. A scalar cannot
      be walked. */
  function Iterable(v: Value): (r: Option<seq<Entry>>)
    ensures r.None? <==> v.Null? || v.Bool? || v.Int? || v.Str? || v.Lay?
    ensures v.Closure? ==> r == Some([])
    ensures v.Arr? ==> r == Some(v.entries)
  {
    match v
    case Arr(e) => Some(e)
    case Obj(p) => Some(p)
    case Coll(e) => Some(e)
    case Closure(_) => Some([])
    case _ => None
  }

  /** A callable entry whose result is not an array. */
  predicate BadCallable(e: Entry) {
    e.val.Closure? && !e.val.result.Arr?
  }

  /** The static-configuration loop: a callable's array result is
      `array_merge`d in, any other entry is assigned under its own key. */
  function StaticLayouts(entries: seq<Entry>): (r: Result<seq<Entry>, RegistryError>)
    ensures r.Failure? ==> r.error == CallableMustReturnArray
    ensures r.Success? ==> forall j | 0 <= j < |entries| :: !BadCallable(entries[j])
  {
    if |entries| == 0 then Success([])
    else
      var acc :- StaticLayouts(entries[..|entries| - 1]);
      var e := entries[|entries| - 1];
      if e.val.Closure? then
        if e.val.result.Arr? then Success(ArrayMerge(acc, e.val.result.entries))
        else Failure(CallableMustReturnArray)
      else Success(Set(acc, e.key, e.val))
  }

  /** The name/class pairs the configuration contributes, in declaration
      order: a direct entry itself, or everything its callable returned. */
  function Contributions(entries: seq<Entry>): seq<Entry> {
    if |entries| == 0 then []
    else
      var e := entries[|entries| - 1];
      Contributions(entries[..|entries| - 1]) +
        (if !e.val.Closure? then [e] else if e.val.result.Arr? then e.val.result.entries else [])
  }

  /** The static configuration fails exactly when some callable returns a
      non-array. */
  lemma {:induction false} StaticLayoutsFailsIff(entries: seq<Entry>)
    ensures StaticLayouts(entries).Failure? <==> exists j | 0 <= j < |entries| :: BadCallable(entries[j])
    decreases |entries|
  {
    if |entries| > 0 {
      var n := |entries| - 1;
      var prefix := entries[..n];
      StaticLayoutsFailsIff(prefix);
      StaticLayoutsStep(entries);
      assert forall j | 0 <= j < n :: prefix[j] == entries[j];
    }
  }

  /** One more entry fails the configuration exactly when it is a bad
      callable or the entries before it already failed. */
  lemma {:induction false} StaticLayoutsStep(entries: seq<Entry>)
    requires |entries| > 0
    ensures StaticLayouts(entries).Failure? <==>
              StaticLayouts(entries[..|entries| - 1]).Failure? || BadCallable(entries[|entries| - 1])
  {
  }

  /** Static configuration, read by name: the last contribution for a name
      wins, whether it came from a direct entry or from a callable. */
  lemma {:induction false} StaticLayoutsOnNames(entries: seq<Entry>, s: string)
    requires StaticLayouts(entries).Success?
    ensures Get(StaticLayouts(entries).value, StrKey(s)) == Get(Contributions(entries), StrKey(s))
    decreases |entries|
  {
    if |entries| > 0 {
      var n := |entries| - 1;
      var e := entries[n];
      StaticLayoutsOnNames(entries[..n], s);
      var acc := StaticLayouts(entries[..n]).value;
      var before := Contributions(entries[..n]);
      if !e.val.Closure? {
        GetConcat(before, [e], StrKey(s));
        GetAppend([], e, StrKey(s));
      } else {
        ArrayMergeOnNames(acc, e.val.result.entries, s);
        GetConcat(before, e.val.result.entries, StrKey(s));
      }
    }
  }

  /** `getLayouts()`. */
  function GetLayouts(cfg: seq<Entry>, flex: Flex, d: Discovery): (r: Result<Resolved, RegistryError>)
    ensures AutoDiscoveryIsActive(cfg) ==> r == Success(AutoDiscoverLayouts(cfg, flex, d))
    ensures !AutoDiscoveryIsActive(cfg) && !Truthy(GetOrNull(cfg, StrKey("layouts"))) ==> r == Success(Resolved(DefaultLayouts, flex))
    ensures !AutoDiscoveryIsActive(cfg) ==> r.Success? ==> r.value.state == flex
    ensures !AutoDiscoveryIsActive(cfg) && Truthy(GetOrNull(cfg, StrKey("layouts"))) ==>
              var configured := GetOrNull(cfg, StrKey("layouts"));
              && (r.Failure? <==>
                    (|| Iterable(configured).None?
                     || exists j | 0 <= j < |Iterable(configured).value| :: BadCallable(Iterable(configured).value[j])))
              && (r.Failure? ==> r.error == if Iterable(configured).None? then LayoutsNotIterable else CallableMustReturnArray)
    ensures AutoDiscoveryIsActive(cfg) || !Truthy(GetOrNull(cfg, StrKey("layouts"))) ==> r.Success?
  {
    if AutoDiscoveryIsActive(cfg) then Success(AutoDiscoverLayouts(cfg, flex, d))
    else
      var configured := GetOrNull(cfg, StrKey("layouts"));
      if !Truthy(configured) then Success(Resolved(DefaultLayouts, flex))
      else
        match Iterable(configured)
        case None => Failure(LayoutsNotIterable)
        case Some(entries) =>
          StaticLayoutsFailsIff(entries);
          var layouts :- StaticLayouts(entries);
          Success(Resolved(if LoadDefaultLayouts(cfg) then ArrayMerge(layouts, DefaultLayouts) else layouts, flex))
  }

  /** A closure given as the whole `layouts` setting is not called: `foreach`
      finds no properties on it, so the result is empty, or just the defaults
      with `merge_layouts`. */
  lemma {:induction false} ClosureSettingGivesNoLayouts(cfg: seq<Entry>, flex: Flex, d: Discovery)
    requires !AutoDiscoveryIsActive(cfg) && GetOrNull(cfg, StrKey("layouts")).Closure?
    ensures GetLayouts(cfg, flex, d) == Success(Resolved(if LoadDefaultLayouts(cfg) then DefaultLayouts else [], flex))
  {
    var entries := Iterable(GetOrNull(cfg, StrKey("layouts"))).value;
    assert entries == [];
    assert StaticLayouts(entries) == Success([]);
    DefaultsMergedIntoNothing();
  }

  /** `array_merge([], $default_layouts)` is the defaults themselves. */
  lemma {:induction false} DefaultsMergedIntoNothing()
    ensures ArrayMerge([], DefaultLayouts) == DefaultLayouts
  {
    var e := DefaultLayouts[0];
    assert DefaultLayouts[..0] == [];
    assert MergeInto([], DefaultLayouts) == Put([], e);
    assert Get([], e.key).None?;
    assert Set([], e.key, e.val) == [e];
  }

  /** With auto-discovery on, the static `layouts` setting is never read:
      replacing it, even by a failing callable, changes nothing. */
  lemma {:induction false} StaticConfigIgnoredWhenDiscovering(cfg: seq<Entry>, flex: Flex, d: Discovery, layouts: Value)
    requires AutoDiscoveryIsActive(cfg)
    ensures GetLayouts(Set(cfg, StrKey("layouts"), layouts), flex, d) == GetLayouts(cfg, flex, d)
  {
    var cfg' := Set(cfg, StrKey("layouts"), layouts);
    assert Get(cfg', StrKey("auto-discovery")) == Get(cfg, StrKey("auto-discovery"));
    assert Get(cfg', StrKey("merge_layouts")) == Get(cfg, StrKey("merge_layouts"));
  }

  /** With auto-discovery off and a static configuration, each name resolves
      to its last configured contribution, except that with `merge_layouts`
      a default layout overwrites a configured one of the same name. */
  lemma {:induction false} StaticLayoutsWithDefaults(cfg: seq<Entry>, flex: Flex, d: Discovery, s: string)
    requires !AutoDiscoveryIsActive(cfg)
    requires Truthy(GetOrNull(cfg, StrKey("layouts"))) && Iterable(GetOrNull(cfg, StrKey("layouts"))).Some?
    requires GetLayouts(cfg, flex, d).Success?
    ensures Get(GetLayouts(cfg, flex, d).value.layouts, StrKey(s)) ==
            if LoadDefaultLayouts(cfg) && Has(DefaultLayouts, StrKey(s)) then Get(DefaultLayouts, StrKey(s))
            else Get(Contributions(Iterable(GetOrNull(cfg, StrKey("layouts"))).value), StrKey(s))
  {
    var entries := Iterable(GetOrNull(cfg, StrKey("layouts"))).value;
    StaticLayoutsOnNames(entries, s);
    if LoadDefaultLayouts(cfg) {
      ArrayMergeOnNames(StaticLayouts(entries).value, DefaultLayouts, s);
    }
  }

  /** With auto-discovery on and no memo, each name resolves to the last
      accepted file declaring it, except that with `merge_layouts` a default
      layout overwrites a discovered one of the same name. */
  lemma {:induction false} DiscoveredLayoutsWithDefaults(cfg: seq<Entry>, d: Discovery, s: string)
    requires AutoDiscoveryIsActive(cfg) && d.folderExists
    ensures Get(GetLayouts(cfg, Flex([]), d).value.layouts, StrKey(s)) ==
            if LoadDefaultLayouts(cfg) && Has(DefaultLayouts, StrKey(s)) then Get(DefaultLayouts, StrKey(s))
            else Get(Accepted(d, d.files), StrKey(s))
  {
    DiscoverReadsAccepted(d, d.files, StrKey(s));
    if LoadDefaultLayouts(cfg) {
      ArrayMergeOnNames(Discover(d, d.files), DefaultLayouts, s);
    }
  }

  /** Discovery is memoised per instance once it found something: a second
      call returns the first call's layouts whatever the folder holds now.
      An empty result leaves the memo unset, so the next call scans again. */
  lemma {:induction false} DiscoveryIsMemoised(cfg: seq<Entry>, flex: Flex, d1: Discovery, d2: Discovery)
    requires AutoDiscoveryIsActive(cfg)
    ensures var first := GetLayouts(cfg, flex, d1).value;
            |first.layouts| > 0 ==> GetLayouts(cfg, first.state, d2) == Success(first)
    ensures var first := GetLayouts(cfg, flex, d1).value;
            |first.layouts| == 0 ==> GetLayouts(cfg, first.state, d2) == GetLayouts(cfg, Flex([]), d2)
  {
  }
}

=== FILE: results.dfy ===
/** Failure-compatible wrappers used throughout the model: an optional value
    and a result that is either a value or an error. */
module Results {

  datatype Option<+T> = None | Some(value: T) {

    /** The wrapped value, or `default` when there is none. */
    function GetOr(default: T): T {
      match this
      case Some(v) => v
      case None => default
    }
  }

  /** A computation that either produced a value or raised an error. */
  datatype Result<+T, +E> = Success(value: T) | Failure(error: E) {

    predicate IsFailure() {
      Failure?
    }

    function PropagateFailure<U>(): Result<U, E>
      requires Failure?
    {
      Failure(error)
    }

    function Extract(): T
      requires Success?
    {
      value
    }
  }

  /** The value of an option, as a list of zero or one elements. */
  function Listed<T>(o: Option<T>): seq<T> {
    match o
    case None => []
    case Some(v) => [v]
  }

  /** The values present in a list of options, in order. */
  function Somes<T>(os: seq<Option<T>>): seq<T> {
    if |os| == 0 then [] else Somes(os[..|os| - 1]) + Listed(os[|os| - 1])
  }

  /** Every present value is kept. */
  lemma {:induction false} SomesContains<T>(os: seq<Option<T>>, j: nat)
    requires j < |os| && os[j].Some?
    ensures os[j].value in Somes(os)
    decreases |os|
  {
    var n := |os| - 1;
    if j < n {
      SomesContains(os[..n], j);
      assert os[..n][j] == os[j];
    } else {
      assert Listed(os[n]) == [os[j].value];
    }
  }

  /** Every kept value was present. */
  lemma {:induction false} SomesFrom<T>(os: seq<Option<T>>, v: T)
    requires v in Somes(os)
    ensures exists j | 0 <= j < |os| :: os[j] == Some(v)
    decreases |os|
  {
    var n := |os| - 1;
    if v in Somes(os[..n]) {
      SomesFrom(os[..n], v);
      var j :| 0 <= j < n && os[..n][j] == Some(v);
      assert os[j] == Some(v);
    } else {
      assert v in Listed(os[n]);
    }
  }
}

=== FILE: sequences.dfy ===
/** Generic sequence helpers. */
module Sequences {

  /** The positions of `s` whose element satisfies `keep`, in increasing order.
      This is the index view of PHP's `array_filter`, which keeps the surviving
      elements in order and under their original keys. */
  function Positions<T>(s: seq<T>, keep: T -> bool): (ix: seq<nat>)
    ensures |ix| <= |s|
    ensures forall i | 0 <= i < |ix| :: ix[i] < |s| && keep(s[ix[i]])
    ensures forall i, j | 0 <= i < j < |ix| :: ix[i] < ix[j]
    ensures forall j | 0 <= j < |s| && keep(s[j]) :: j in ix
  {
    if |s| == 0 then []
    else
      var n := |s| - 1;
      Positions(s[..n], keep) + (if keep(s[n]) then [n] else [])
  }

  lemma {:induction false} AppendAssoc<T>(a: seq<T>, b: seq<T>, c: seq<T>)
    ensures a + (b + c) == (a + b) + c
  {
  }

  lemma {:induction false} PrefixLast<T>(s: seq<T>)
    requires |s| > 0
    ensures s[..|s| - 1] + [s[|s| - 1]] == s
  {
  }

  lemma {:induction false} Snoc<T>(xs: seq<T>, y: T)
    ensures |xs + [y]| == |xs| + 1 && (xs + [y])[..|xs|] == xs && (xs + [y])[|xs|] == y
  {
    assert (xs + [y])[..|xs|] == xs;
  }
}

=== FILE: strings.dfy ===
/** The PHP string functions the core uses: `explode`, `implode`,
    `str_replace` (removal and single-character replacement), prefix and
    suffix tests, and `SplFileInfo::getExtension`. */
module Strings {
  import opened Results

  predicate StartsWith(s: string, p: string) {
    |p| <= |s| && s[..|p|] == p
  }

  predicate EndsWith(s: string, p: string) {
    |p| <= |s| && s[|s| - |p|..] == p
  }

  /** `pat` occurs in `s` starting at index `i`. */
  predicate OccursAt(s: string, pat: string, i: nat) {
    i + |pat| <= |s| && s[i..i + |pat|] == pat
  }

  predicate Contains(s: string, pat: string) {
    exists i: nat | i <= |s| :: OccursAt(s, pat, i)
  }

  /** The first occurrence of `pat` in `s` at or after `from`. */
  function FindFrom(s: string, pat: string, from: nat): (r: Option<nat>)
    requires |pat| > 0
    ensures r.Some? ==> from <= r.value && OccursAt(s, pat, r.value)
    ensures r.Some? ==> forall j: nat | from <= j < r.value :: !OccursAt(s, pat, j)
    ensures r.None? ==> forall j: nat | from <= j :: !OccursAt(s, pat, j)
    decreases |s| - from
  {
    if from + |pat| > |s| then None
    else if OccursAt(s, pat, from) then Some(from)
    else FindFrom(s, pat, from + 1)
  }

  /** `explode($d, $s)`: the pieces of `s` between non-overlapping
      occurrences of `d`, found left to right. */
  function Explode(s: string, d: string): (parts: seq<string>)
    requires |d| > 0
    ensures |parts| >= 1
    decreases |s|
  {
    match FindFrom(s, d, 0)
    case None => [s]
    case Some(i) => [s[..i]] + Explode(s[i + |d|..], d)
  }

  /** `implode($d, $parts)`. */
  function Implode(parts: seq<string>, d: string): string
    requires |parts| >= 1
  {
    if |parts| == 1 then parts[0] else parts[0] + d + Implode(parts[1..], d)
  }

  /** Joining the pieces of an `explode` with the same delimiter gives back
      the original string. */
  lemma {:induction false} ImplodeExplode(s: string, d: string)
    requires |d| > 0
    ensures Implode(Explode(s, d), d) == s
    decreases |s|
  {
    match FindFrom(s, d, 0)
    case None =>
    case Some(i) =>
      var rest := s[i + |d|..];
      ExplodeCut(s, d, i);
      ImplodeExplode(rest, d);
      ImplodeCons(s[..i], Explode(rest, d), d);
      SplitAround(s, d, i);
  }

  lemma {:induction false} ImplodeCons(a: string, parts: seq<string>, d: string)
    requires |parts| >= 1
    ensures Implode([a] + parts, d) == a + d + Implode(parts, d)
  {
    assert ([a] + parts)[1..] == parts;
  }

  /** A string is the piece before an occurrence, the occurrence and the
      piece after it. */
  lemma {:induction false} SplitAround(s: string, d: string, i: nat)
    requires OccursAt(s, d, i)
    ensures s == s[..i] + d + s[i + |d|..]
  {
    assert s == s[..i] + s[i..i + |d|] + s[i + |d|..];
  }

  /** No piece of an `explode` contains the delimiter. */
  lemma {:induction false} ExplodePartsAreFree(s: string, d: string)
    requires |d| > 0
    ensures forall k | 0 <= k < |Explode(s, d)| :: !Contains(Explode(s, d)[k], d)
    decreases |s|
  {
    match FindFrom(s, d, 0)
    case None =>
      assert Explode(s, d) == [s];
    case Some(i) =>
      var rest := s[i + |d|..];
      ExplodePartsAreFree(rest, d);
      assert Explode(s, d) == [s[..i]] + Explode(rest, d);
      forall j: nat | OccursAt(s[..i], d, j)
        ensures false
      {
        assert s[..i][j..j + |d|] == s[j..j + |d|];
        assert OccursAt(s, d, j);
      }
  }

  /** A string in which `d` does not occur explodes to itself alone. */
  lemma {:induction false} ExplodeFree(s: string, d: string)
    requires |d| > 0 && !Contains(s, d)
    ensures Explode(s, d) == [s]
  {
  }

  /** Exploding `a + d + rest` when the first occurrence of `d` is the one
      right after `a`. */
  lemma {:induction false} ExplodeFirst(a: string, d: string, rest: string)
    requires |d| > 0
    requires forall j: nat | j < |a| :: !OccursAt(a + d + rest, d, j)
    ensures Explode(a + d + rest, d) == [a] + Explode(rest, d)
  {
    var s := a + d + rest;
    assert OccursAt(s, d, |a|) by {
      assert s[|a|..|a| + |d|] == d;
    }
    var f := FindFrom(s, d, 0);
    assert f == Some(|a|);
    assert s[..|a|] == a;
    assert s[|a| + |d|..] == rest;
  }

  /** `str_replace($pat, '', $s)`: one left-to-right pass removing every
      non-overlapping occurrence; an empty pattern leaves `s` unchanged. */
  function RemoveAll(s: string, pat: string): (r: string)
    ensures |r| <= |s|
  {
    if |pat| == 0 then s else RemoveEach(s, pat)
  }

  /** The removal pass for a non-empty pattern. */
  function RemoveEach(s: string, pat: string): (r: string)
    requires |pat| > 0
    ensures |r| <= |s|
    decreases |s|
  {
    match FindFrom(s, pat, 0)
    case None => s
    case Some(i) => s[..i] + RemoveEach(s[i + |pat|..], pat)
  }

  function Concat(parts: seq<string>): string {
    if |parts| == 0 then "" else parts[0] + Concat(parts[1..])
  }

  /** Removal is `implode('', explode($pat, $s))`. */
  lemma {:induction false} RemoveAllIsExplodeConcat(s: string, pat: string)
    requires |pat| > 0
    ensures RemoveAll(s, pat) == Concat(Explode(s, pat))
  {
    RemoveEachIsExplodeConcat(s, pat);
  }

  lemma {:induction false} RemoveEachIsExplodeConcat(s: string, pat: string)
    requires |pat| > 0
    ensures RemoveEach(s, pat) == Concat(Explode(s, pat))
    decreases |s|
  {
    match FindFrom(s, pat, 0)
    case None =>
      assert Explode(s, pat) == [s] && RemoveEach(s, pat) == s;
      ConcatCons(s, []);
    case Some(i) =>
      var rest := s[i + |pat|..];
      ExplodeCut(s, pat, i);
      RemoveCut(s, pat, i);
      RemoveEachIsExplodeConcat(rest, pat);
      ConcatCons(s[..i], Explode(rest, pat));
  }

  /** `explode` cuts at the first occurrence. */
  lemma {:induction false} ExplodeCut(s: string, pat: string, i: nat)
    requires |pat| > 0 && FindFrom(s, pat, 0) == Some(i)
    ensures Explode(s, pat) == [s[..i]] + Explode(s[i + |pat|..], pat)
  {
  }

  /** Removal cuts at the first occurrence. */
  lemma {:induction false} RemoveCut(s: string, pat: string, i: nat)
    requires |pat| > 0 && FindFrom(s, pat, 0) == Some(i)
    ensures RemoveEach(s, pat) == s[..i] + RemoveEach(s[i + |pat|..], pat)
  {
  }

  lemma {:induction false} ConcatCons(a: string, parts: seq<string>)
    ensures Concat([a] + parts) == a + Concat(parts)
  {
    assert ([a] + parts)[1..] == parts;
  }

  /** `str_replace($from, $to, $s)` for single characters. */
  function ReplaceChar(s: string, from: char, to: char): (r: string)
    ensures |r| == |s|
    ensures forall i | 0 <= i < |s| && s[i] != from :: r[i] == s[i]
    ensures from != to ==> from !in r
  {
    seq(|s|, i requires 0 <= i < |s| => if s[i] == from then to else s[i])
  }

  /** The index of the last `c` in `s`. */
  function LastIndex(s: string, c: char): (r: Option<nat>)
    ensures r.Some? ==> r.value < |s| && s[r.value] == c && forall j | r.value < j < |s| :: s[j] != c
    ensures r.None? ==> c !in s
  {
    if |s| == 0 then None
    else if s[|s| - 1] == c then Some(|s| - 1)
    else
      assert s == s[..|s| - 1] + [s[|s| - 1]];
      LastIndex(s[..|s| - 1], c)
  }

  /** The file name part of a path: everything after the last `/`. */
  function Basename(path: string): string {
    match LastIndex(path, '/')
    case None => path
    case Some(i) => path[i + 1..]
  }

  /** `SplFileInfo::getExtension()`: what follows the last `.` of the file
      name, or nothing when the name has no dot. */
  function Extension(path: string): string {
    var base := Basename(path);
    match LastIndex(base, '.')
    case None => ""
    case Some(i) => base[i + 1..]
  }

  /** The file name is a suffix of the path and holds no `/`. */
  lemma {:induction false} BasenameIsSuffix(path: string)
    ensures EndsWith(path, Basename(path)) && '/' !in Basename(path)
  {
  }

  lemma {:induction false} ExtensionPhpEndsWithSuffix(path: string)
    requires Extension(path) == "php"
    ensures EndsWith(path, ".php")
  {
    var base := Basename(path);
    BasenameIsSuffix(path);
    var i := LastIndex(base, '.').value;
    assert base[i..] == ".php" by {
      assert base[i..] == [base[i]] + base[i + 1..];
    }
    assert path[|path| - |base|..] == base;
    assert path[|path| - 4..] == base[|base| - 4..];
  }

  lemma {:induction false} PhpSuffixChars(s: string)
    requires EndsWith(s, ".php")
    ensures s[|s| - 4] == '.' && s[|s| - 3] == 'p' && s[|s| - 2] == 'h' && s[|s| - 1] == 'p'
  {
    var n := |s|;
    assert s[n - 4..][0] == s[n - 4];
    assert s[n - 4..][1] == s[n - 3];
    assert s[n - 4..][2] == s[n - 2];
    assert s[n - 4..][3] == s[n - 1];
  }

  lemma {:induction false} BasenameKeepsPhpSuffix(path: string)
    requires EndsWith(path, ".php")
    ensures EndsWith(Basename(path), ".php")
  {
    PhpSuffixChars(path);
    var n := |path|;
    match LastIndex(path, '/')
    case None =>
    case Some(j) =>
      assert j < n - 4;
      assert Basename(path)[|Basename(path)| - 4..] == path[n - 4..];
  }

  lemma {:induction false} SuffixGivesExtensionPhp(path: string)
    requires EndsWith(path, ".php")
    ensures Extension(path) == "php"
  {
    var base := Basename(path);
    BasenameKeepsPhpSuffix(path);
    PhpSuffixChars(base);
    var m := |base|;
    LastIndexIs(base, '.', m - 4);
    assert base[m - 3..] == "php" by {
      assert base[m - 3..] == base[m - 4..][1..];
    }
  }

  /** An occurrence of `c` with no `c` after it is the last one. */
  lemma {:induction false} LastIndexIs(s: string, c: char, i: nat)
    requires i < |s| && s[i] == c && forall j | i < j < |s| :: s[j] != c
    ensures LastIndex(s, c) == Some(i)
  {
  }

  /** A path has the extension `php` exactly when it ends in `.php`. */
  lemma {:induction false} ExtensionPhpIffSuffix(path: string)
    ensures Extension(path) == "php" <==> EndsWith(path, ".php")
  {
    if Extension(path) == "php" {
      ExtensionPhpEndsWithSuffix(path);
    }
    if EndsWith(path, ".php") {
      SuffixGivesExtensionPhp(path);
    }
  }
}
